=== FILE: README.md ===
# Daily Wallhaven Wallpaper — a Dafny model of the script's core

`change_wallpaper_wallhaven.py` picks a wallpaper from the wallhaven.cc
search API, downloads it and sets it as the desktop background. This
project models its pure core and proves properties of that model:

- **The option validators** `toprange`, `sorting`, `order`, `atleast` and
  `filters`. Each one returns its argument unchanged or raises `ValueError`,
  which is modelled as `Failure(Invalid(s))`. `atleast` and `filters` consult
  Python's `int()`. The model of `int()` is written out in module `PyInt`
  for all-ASCII strings: surrounding whitespace (space and `\t` through
  `\r`), an optional sign, and ASCII digits with single underscores between
  them.
- **Option resolution** (`Settings`). The default configuration comes from
  `load_config`. Each flag of `parse_args` falls back to its configuration
  value, and argparse runs the validator on that fallback as well.
  `--display` is parsed as an integer on every platform.
- **The search request** of `get_wallpaper` (`Search`). A fixed endpoint is
  followed by six `name=value` parameters. The model also reads such a URL
  back into its parameters.
- **The image name and save location** (`ImagePath`). The id and the file
  type are taken from the image URL with Python's `str.split` semantics.
  Every `~` in the output directory is replaced by the home directory.
- **Desktop detection and the dispatch gate** (`Desktop`, `Template`).
  - Detection runs the ordered environment-variable checks, then the
    `xprop` probe.
  - The gate then tests whether the detected name is supported.
  - Each command template is a list of text pieces and save-location places.
    Python's `str.format` is modelled on its rendered text.
- **The Linux main flow** (`Script`). `SearchAsWritten` and
  `ImagePath.SaveLocationAsWritten` are the two steps as the script writes
  them. `LinuxPlan` is the corrected flow: it builds the search URL from the
  resolved options and uses the save location defined for every output
  directory (see Findings). It goes from the configuration, the flags and the
  image URL to the search URL, the save location and the command that is
  run.

`PyStr` holds Python's `str.split`, `str.join` and `str.replace` on strings.
`Wrappers` holds `Option` and `Result`.

Three behaviours of the code that a reader might not expect, all modelled
as the code has them:

- An invalid configured value stops the script with a usage error, unless
  that option's flag is given. `load_config` reads the values without
  validating them (lines 84-92). argparse runs an option's `type=` validator
  on its string default only when the flag is missing (lines 221-248), so a
  bad configured value is never replaced by a default. When the flag is
  given, the configured value is never validated, and the search URL as
  written (lines 271-279) still carries it.
- Every `~` of the output directory is replaced by the home directory, not
  only a leading one (line 394).
- Command-line flags are validated, but the search URL at lines 271-279 is
  built from the configuration, so they never reach it (see Findings).

## Model

| member | source | states |
|---|---|---|
| PyStr.Split | change_wallpaper_wallhaven.py:153 | `str.split` on one character: at least one piece, and no piece contains the separator |
| PyStr.SplitOfJoin | change_wallpaper_wallhaven.py:153 | splitting pieces joined by the separator gives the pieces back when none contains it |
| PyStr.JoinOfSplit | change_wallpaper_wallhaven.py:153 | joining the pieces of a split with the separator gives the original string back |
| PyStr.SplitIntoTwo | change_wallpaper_wallhaven.py:153-154 | a string splits into exactly `[a, b]` if and only if it is `a + sep + b` with neither side containing the separator |
| PyStr.SplitAppend | change_wallpaper_wallhaven.py:153 | splitting `a + sep + b` is the split of `a` followed by the split of `b` |
| PyStr.FirstPieceIsPrefix | change_wallpaper_wallhaven.py:388 | the first piece is the longest separator-free prefix |
| PyStr.LastPieceIsSuffix | change_wallpaper_wallhaven.py:388-389 | the last piece (`[-1]`) is the longest separator-free suffix |
| PyStr.Replace | change_wallpaper_wallhaven.py:394 | `str.replace` leaves a string without the target unchanged, and leaves no target behind when the replacement has none |
| PyStr.ReplaceIsJoinOfSplit | change_wallpaper_wallhaven.py:394 | replacing every occurrence equals splitting on the target and joining with the replacement |
| PyStr.ReplaceAppend | change_wallpaper_wallhaven.py:394 | replacement distributes over concatenation |
| PyStr.ReplaceByItself | change_wallpaper_wallhaven.py:394 | replacing a character by itself is the identity |
| PyStr.Join | change_wallpaper_wallhaven.py:394 | Python's `sep.join(parts)`, which the script never calls: it is the reference reading `ReplaceIsJoinOfSplit` gives to the `replace` at line 394. The join starts with the first part, and `SplitOfJoin` and `JoinOfSplit` relate it to `str.split` |
| PyStr.Contains | change_wallpaper_wallhaven.py:347 | `sub in s`: every prefix of `s` is contained in it, and a contained string is no longer than `s` |
| PyInt.TrimStart | change_wallpaper_wallhaven.py:159-160 | the leading ASCII whitespace that `int()` ignores (space, `\t` through `\r`) is removed exactly: the result is a suffix, everything dropped is whitespace, and the result does not start with whitespace |
| PyInt.TrimEnd | change_wallpaper_wallhaven.py:159-160 | the same for trailing whitespace |
| PyInt.DigitRunIsUnderscoreSeparatedGroups | change_wallpaper_wallhaven.py:159-160 | a digit run accepted by `int()` is exactly one or more non-empty digit groups separated by single underscores |
| PyInt.IsPyInt | change_wallpaper_wallhaven.py:159-160 | `int(s)` succeeds only when something is left after stripping whitespace, and always for a non-empty string of ASCII digits; `PyIntAlphabet` and `DigitRunIsUnderscoreSeparatedGroups` characterize it further |
| PyInt.DigitsArePyInt | change_wallpaper_wallhaven.py:159-160 | `int()` accepts every non-empty string of ASCII digits |
| PyInt.PyIntAlphabet | change_wallpaper_wallhaven.py:204 | a string `int()` accepts uses only digits, whitespace, signs and underscores, and holds at least one digit |
| PyInt.NatToStringRoundTrip | change_wallpaper_wallhaven.py:159-160 | the decimal spelling of a natural number is accepted by `int()`; `DigitsValue`, a reference reading of digit strings with no counterpart in the script, reads it back as that number |
| Validators.TopRange | change_wallpaper_wallhaven.py:114-117 | returns its argument unchanged, or raises for that argument |
| Validators.Sorting | change_wallpaper_wallhaven.py:133-137 | returns its argument unchanged, or raises for that argument |
| Validators.Order | change_wallpaper_wallhaven.py:180-183 | returns its argument unchanged, or raises for that argument |
| Validators.Atleast | change_wallpaper_wallhaven.py:153-164 | returns its argument unchanged, or raises for that argument |
| Validators.Filters | change_wallpaper_wallhaven.py:199-208 | returns its argument unchanged, or raises for that argument |
| Validators.TopRangeAcceptsExactlyWindows | change_wallpaper_wallhaven.py:114-117 | accepted exactly when the string names one of the seven toplist windows, and each window's name parses back to it |
| Validators.SortingAcceptsExactlySortKeys | change_wallpaper_wallhaven.py:133-137 | accepted exactly when the string names one of the six sort keys, and each key's name parses back to it |
| Validators.OrderAcceptsExactlyDirections | change_wallpaper_wallhaven.py:180-183 | accepted exactly when the string names a direction, and each direction's name parses back to it |
| Validators.EnumValidatorsAreExact | change_wallpaper_wallhaven.py:114-117 | membership is exact: `1m`, ` 1d`, `Toplist`, the empty string and `ASC` are rejected |
| Validators.AtleastAcceptsExactlyResolutions | change_wallpaper_wallhaven.py:153-164 | accepted if and only if the string is `w + "x" + h` with `int()` accepting both `w` and `h` |
| Validators.AtleastAcceptsDigitPairs | change_wallpaper_wallhaven.py:153-164 | any two non-empty digit strings around an `x` are accepted |
| Validators.AtleastAcceptsPrintedSizes | change_wallpaper_wallhaven.py:153-164 | every `<width>x<height>` of natural numbers is accepted |
| Validators.AtleastAcceptsExample | change_wallpaper_wallhaven.py:239 | the documented `1920x1080` is accepted |
| Validators.AtleastRejectsOnePiece | change_wallpaper_wallhaven.py:154-156 | every string without `x` is rejected, because it splits into one piece |
| Validators.AtleastRejectsThreePieces | change_wallpaper_wallhaven.py:154-156 | `1x2x3` is rejected because it splits into three pieces |
| Validators.AtleastRejectsEmptyPiece | change_wallpaper_wallhaven.py:154-163 | every size with one side empty, such as `x1080` or `1920x`, is rejected because `int('')` raises |
| Validators.FiltersAcceptsThreeDigits | change_wallpaper_wallhaven.py:199-208 | any three ASCII digits are accepted, not only zeros and ones |
| Validators.FiltersAlphabet | change_wallpaper_wallhaven.py:199-208 | an accepted value has three characters, all from `int()`'s alphabet, and at least one digit |
| Validators.FiltersAcceptsExample | change_wallpaper_wallhaven.py:243 | the documented `100` is accepted |
| Validators.FiltersAcceptsNines | change_wallpaper_wallhaven.py:199-208 | `999` is accepted |
| Validators.FiltersAcceptsNegative | change_wallpaper_wallhaven.py:199-208 | `-10` is accepted: a sign counts toward the three characters |
| Validators.FiltersRejections | change_wallpaper_wallhaven.py:199-207 | `1` is rejected for its length and `1a0` because `int()` raises |
| Validators.FiltersRejectsFileSeparator | change_wallpaper_wallhaven.py:199-207 | `"\x1c10"` is rejected: `int()` does not skip `\x1c` in an all-ASCII string, although `str.isspace()` counts it as whitespace |
| Validators.EnumValuesHaveNoDelimiters | change_wallpaper_wallhaven.py:114-117 | no accepted toprange, sorting or order value contains `&` or `=` |
| Validators.AtleastValuesHaveNoDelimiters | change_wallpaper_wallhaven.py:153-164 | no accepted atleast value contains `&` or `=` |
| Validators.FiltersValuesHaveNoDelimiters | change_wallpaper_wallhaven.py:199-208 | no accepted filters value contains `&` or `=` |
| Settings.Resolve | change_wallpaper_wallhaven.py:221-258 | parsing succeeds if and only if the flags laid over the configuration pass every validator and a given `--display` is an integer; it then yields exactly that overlay; on failure the error names a flag whose value is rejected |
| Settings.DisplayFlagChecked | change_wallpaper_wallhaven.py:249-253 | a `--display` value that `int()` rejects stops parsing on every platform; an integer changes nothing else |
| Settings.DisplayWordRejected | change_wallpaper_wallhaven.py:249-253 | a `--display` value containing any character `int()` never accepts (anything but digits, ASCII whitespace, signs and `_`), such as any letter in `abc` or `ABC`, stops parsing with an error naming `--display` |
| Settings.DefaultsAreValid | change_wallpaper_wallhaven.py:35-44 | the default configuration passes every validator |
| Settings.DefaultsResolve | change_wallpaper_wallhaven.py:35-44 | with the defaults and no flags, parsing yields exactly the defaults |
| Settings.Overlay | change_wallpaper_wallhaven.py:221-256 | each option takes its flag if given, else the configured value; with no flags the configuration stands as it is |
| Settings.OverlayLaws | change_wallpaper_wallhaven.py:221-256 | laying the same flags over twice changes nothing more, and with every flag given the configuration does not matter |
| Settings.FlaggedConfigValueUnchecked | change_wallpaper_wallhaven.py:225-228 | with `--sorting` given, parsing succeeds whatever the configured sorting value, even one the validator rejects |
| Settings.FlagWinsOverConfig | change_wallpaper_wallhaven.py:225-228 | a given `--sorting` value replaces the configured one, and its validator accepted it unchanged |
| Settings.ValidConfigHasNoDelimiters | change_wallpaper_wallhaven.py:221-248 | no validated option contains `&` |
| Search.SearchUrl | change_wallpaper_wallhaven.py:271-279 | every search URL starts with the search endpoint |
| Search.SearchUrlIsJoinedItems | change_wallpaper_wallhaven.py:271-279 | the URL is the endpoint followed by the six `name=value` items joined with `&` |
| Search.KeyValueOf | change_wallpaper_wallhaven.py:273-278 | an item `name=value` reads back as `(name, value)` when the name has no `=` |
| Search.SearchUrlRoundTrip | change_wallpaper_wallhaven.py:271-279 | read back, the URL yields exactly the six parameters in order, provided no value contains `&` |
| Search.ValidSearchUrlRoundTrip | change_wallpaper_wallhaven.py:271-279 | for every configuration that passes the validators, the URL carries the six values unchanged and in order |
| Search.SearchUrlIgnoresOtherFields | change_wallpaper_wallhaven.py:271-279 | the api key and the output directory do not affect the URL |
| ImagePath.ImageId | change_wallpaper_wallhaven.py:388 | the id contains neither `/` nor `.` |
| ImagePath.ImageType | change_wallpaper_wallhaven.py:389 | the type contains no `.` |
| ImagePath.ImageIdLocation | change_wallpaper_wallhaven.py:388 | the id is the longest `.`-free prefix of the URL's last `/`-segment, which is the longest `/`-free suffix |
| ImagePath.ImageTypeLocation | change_wallpaper_wallhaven.py:389 | the type is the longest `.`-free suffix of the whole URL |
| ImagePath.ImageNameRoundTrip | change_wallpaper_wallhaven.py:388-389 | a URL ending in `/<id>.<type>` yields that id and that type back |
| ImagePath.ImageNameExample | change_wallpaper_wallhaven.py:388-389 | `https://host/full/1234.jpg` gives id `1234` and type `jpg` |
| ImagePath.ImageIdWithoutExtension | change_wallpaper_wallhaven.py:388 | for every URL whose last `/`-segment has no `.`, the id is that whole segment |
| ImagePath.ImageTypeWithoutExtension | change_wallpaper_wallhaven.py:389 | the type is everything after the URL's last `.`, wherever it is: for `a + "." + b` with no `.` in `b` the type is `b`, so `https://h/a.b/abc` gives `b/abc` |
| ImagePath.ImageTypeWithoutDot | change_wallpaper_wallhaven.py:389 | a URL with no `.` at all is its own type |
| ImagePath.SaveLocationAsWritten | change_wallpaper_wallhaven.py:392-399 | a location is assigned if and only if the output directory contains `~`; it is then the directory with every `~` replaced by home, followed by `/<id>.<type>` |
| ImagePath.SaveLocationUnassignedWithoutTilde | change_wallpaper_wallhaven.py:392-401 | for `/tmp/walls` no location is assigned, although the intended one is `/tmp/walls/<id>.<type>` |
| ImagePath.SaveLocation | change_wallpaper_wallhaven.py:392-399 | for every directory the location is the directory with every `~` expanded, then `/<id>.<type>`; a directory without `~` is used as it is |
| ImagePath.SaveLocationAgreesWhereAssigned | change_wallpaper_wallhaven.py:392-399 | wherever the script assigns a location, it equals the intended one |
| ImagePath.EveryTildeExpanded | change_wallpaper_wallhaven.py:394 | no `~` survives expansion when the home directory has none |
| ImagePath.InnerTildeExpanded | change_wallpaper_wallhaven.py:394 | a single `~` anywhere in the directory, not only at its start, is replaced in place by the home directory |
| ImagePath.DefaultOutputExpanded | change_wallpaper_wallhaven.py:44 | the default `~/Pictures/Wallpapers` becomes `<home>/Pictures/Wallpapers/<id>.<type>` |
| Template.Escape | change_wallpaper_wallhaven.py:316-323 | text without braces is written as it is |
| Template.Format | change_wallpaper_wallhaven.py:434-435 | formatting a template without braces gives it back unchanged |
| Template.FormatEscaped | change_wallpaper_wallhaven.py:316-323 | doubled braces format back to the literal text |
| Template.FormatField | change_wallpaper_wallhaven.py:434-435 | `{save_location}` formats to the save location |
| Template.FormatRender | change_wallpaper_wallhaven.py:434-435 | formatting a rendered template never raises and yields the pieces with the save location filled in |
| Template.FormatRejectsStrayBraces | change_wallpaper_wallhaven.py:434-435 | an unknown field and a lone `}` raise |
| Desktop.Command | change_wallpaper_wallhaven.py:310-348 | every detected environment has a command template except XFCE |
| Desktop.Detect | change_wallpaper_wallhaven.py:302-352 | `None` comes only from a failed probe, a failed probe leaves only the environment checks to decide, and XFCE only from a probe output holding ` = "xfce4"`; `DetectFollowsRuleTable` gives the full first-match reading |
| Desktop.DetectFollowsRuleTable | change_wallpaper_wallhaven.py:310-352 | detection is the target of the first matching check in the ordered table of five environment checks, and falls back to the probe only when none matches |
| Desktop.ProbeConsultedLast | change_wallpaper_wallhaven.py:344-352 | once an environment check matched, the probe's output does not matter and the result is never XFCE |
| Desktop.DetectGnome | change_wallpaper_wallhaven.py:310-330 | GNOME is detected exactly when `GNOME_DESKTOP_SESSION_ID` is non-empty and KDE did not claim the session |
| Desktop.DesktopSessionExact | change_wallpaper_wallhaven.py:310-343 | for every environment and probe, Lubuntu, MATE and i3 are detected exactly when KDE and GNOME are not signalled and `DESKTOP_SESSION` equals `Lubuntu`, `mate` or `i3` exactly, so `lubuntu` in lower case is not recognised |
| Desktop.DetectXfce | change_wallpaper_wallhaven.py:344-348 | XFCE is detected exactly when no environment check matches and the probe output contains ` = "xfce4"` |
| Desktop.SupportedExactlyWithCommand | change_wallpaper_wallhaven.py:382 | a detected environment's name is in the supported list if and only if it has a command template: only XFCE is left out |
| Desktop.LinuxAction | change_wallpaper_wallhaven.py:432-438 | a command runs if and only if a non-XFCE environment was detected, so the empty result and `None` end as unsupported; the command is what `format(save_location=…)` yields on that environment's template as written, and that formatting never raises |
| Desktop.CommandMentionsLocation | change_wallpaper_wallhaven.py:434-435 | every command that runs contains the save location |
| Desktop.Commands | change_wallpaper_wallhaven.py:310-343 | the five commands, spelled out with the save location filled in |
| Desktop.NoSignalIsUnsupported | change_wallpaper_wallhaven.py:344-352 | with no environment variable set and no XFCE report from the probe, the environment is unsupported |
| Script.SearchAsWritten | change_wallpaper_wallhaven.py:379-385 | the search goes ahead exactly when the flags parse; for a valid configuration the request reads back as the configuration's own six parameters, whatever the flags say |
| Script.SearchAsWrittenIgnoresFlags | change_wallpaper_wallhaven.py:271-279 | any two sets of flags that both parse send the same request |
| Script.SearchForOptions | change_wallpaper_wallhaven.py:379-385 | the corrected search goes ahead exactly when the flags resolve, and its URL carries the resolved options |
| Script.SortingFlagIgnored | change_wallpaper_wallhaven.py:271-279 | a valid `--sorting v` is accepted, yet the request as written asks for the configured order; the corrected one asks for `v` |
| Script.UncheckedConfigValueSent | change_wallpaper_wallhaven.py:221-279 | as written, with `--sorting` given, the request starts with the configured sorting value, whether or not the validator would accept it |
| Script.SortingRandomIgnored | change_wallpaper_wallhaven.py:271-279 | with the defaults, `--sorting random` still requests `sorting=toplist` |
| Script.NoFlagsSameSearch | change_wallpaper_wallhaven.py:379-385 | without flags the script as written and the corrected search agree |
| Script.LinuxPlan | change_wallpaper_wallhaven.py:379-438 | the corrected flow, with the search built from the options and the save location defined for every directory: a run goes ahead exactly when the options resolve; the URL carries the resolved options; the save location is the expanded directory with `/<id>.<type>`; a command runs exactly when a non-XFCE environment is detected, and that command contains the save location |
| Script.GnomeSessionPlan | change_wallpaper_wallhaven.py:326-330 | on a GNOME session the corrected plan runs `gsettings … picture-uri file://<save location>` |
| Script.DefaultImageLocation | change_wallpaper_wallhaven.py:388-399 | with the default output directory, `<prefix><id>.<type>` is saved as `<home>/Pictures/Wallpapers/<id>.<type>` |
| Script.GnomeDefaultRun | change_wallpaper_wallhaven.py:379-435 | with the default output directory and a GNOME session, the image is saved under `<home>/Pictures/Wallpapers` and that file is set through `gsettings` |

## Left out

- `load_config` (lines 27-98) reads and writes `change_wallpaper_haven.rc`
  with `ConfigParser`, which is file I/O. The configuration is an input
  here. Its error fallback at lines 79-81 calls `.format` on the result of
  `logger.warn` and would itself raise; that path is not modelled.
- The network is not modelled: the search request, the JSON answer, the
  download and the check for an existing file (lines 281-299 and 401-422).
  The image URL is an input.
- `os.path.expanduser('~')` is an input, the home directory.
- Running commands is not modelled: `os.system`, the `xprop` call itself,
  the Windows `SystemParametersInfo` calls and the macOS `osascript`
  branch. The probe's output is an input, and `None` stands for a probe
  that raised.
- The value of `--display` is not kept, because only the macOS branch uses
  it. Its parsing as an integer is modelled. The configured `display` that
  becomes the default is either an integer read with `getint` (line 91) or,
  on a first run (lines 52-57) and after an `IOError` (lines 96-98), the
  default string `'0'` (line 43). argparse runs `int('0')` on that string
  when `-d` is absent, which always succeeds, so the model treats the
  configured value as accepted.
- Logging, the Python 2 branches and the `platform.system()` test are not
  modelled; the model covers the Linux branch.
- `int()` is modelled for ASCII input only. Non-ASCII digits and spaces,
  and the 4300-digit conversion limit, are left out.
- `str.format` is modelled only for this script's templates: the field
  `save_location`, and `{{` and `}}`. Conversions, format specs, indexing
  and attribute access are left out.
- `requests` may re-quote characters of the URL before sending it; the
  model stops at the URL string.
- The mistaken concatenation of a string and a status code in the error
  messages at lines 297 and 419 is left out, since it only affects paths
  that exit anyway.
- Settings.Resolve: does not fix which of several invalid flags argparse
  reports. The order of checks in the model is one possible order, and the
  contract says only that the reported flag is invalid.
- Search.SearchUrlIgnoresOtherFields: shows that the api key does not
  change the URL. It does not show that the key is never a substring of
  it.

## Findings

| source | as written | input that shows it | evidently intended | confidence | as-written member | corrected member |
|---|---|---|---|---|---|---|
| change_wallpaper_wallhaven.py:392-401 | `save_location` is assigned only inside `if '~' in save_dir`, and line 401 reads it unconditionally | `--output /tmp/walls`: no `~`, so line 401 raises `NameError` | the location is `<output>/<id>.<type>` for every output directory, with `~` expanded when present | not executed | ImagePath.SaveLocationUnassignedWithoutTilde | ImagePath.SaveLocation |
| change_wallpaper_wallhaven.py:271-279 | the search URL is built from `config`, the loaded file, while the validated flags live in `args` | `--sorting random` with the default configuration: the request still says `sorting=toplist` | the flags, which win over the configuration, are what the search uses | not executed | Script.SortingRandomIgnored | Script.SearchForOptions |

=== FILE: desktop.dfy ===
/** Desktop-environment detection on Linux and the gate that decides whether
    a wallpaper command is run. The process environment is a map from
    variable names to values; the output of the `xprop` probe is an input,
    `None` when running the probe raised. */
module Desktop {
  import opened Wrappers
  import opened PyStr
  import opened Template

  datatype DesktopKind = Kde | Gnome | Lubuntu | Mate | I3 | Xfce

  /** The `name` entry of the detected environment. */
  function Name(d: DesktopKind): string {
    match d
    case Kde => "kde"
    case Gnome => "gnome"
    case Lubuntu => "lubuntu"
    case Mate => "mate"
    case I3 => "i3"
    case Xfce => "xfce"
  }

  const KdeScriptHead: string :=
    "\nqdbus org.kde.plasmashell /PlasmaShell org.kde.PlasmaShell.evaluateScript '\n" +
    "    var allDesktops = desktops();\n" +
    "    print (allDesktops);\n" +
    "    for (i=0;i<allDesktops.length;i++) {\n" +
    "        d = allDesktops[i];\n" +
    "        d.wallpaperPlugin = \"org.kde.image\";\n" +
    "        d.currentConfigGroup = Array(\"Wallpaper\",\n" +
    "                                \"org.kde.image\",\n" +
    "                                \"General\");\n" +
    "        d.writeConfig(\"Image\", \"file:///"

  const KdeScriptTail: string := "\")\n    }\n'\n                "

  const GnomeCommandHead: string := "gsettings set org.gnome.desktop.background picture-uri file://"
  const LubuntuCommandHead: string := "pcmanfm -w "
  const LubuntuCommandTail: string := " --wallpaper-mode=fit"
  const MateCommandHead: string := "gsettings set org.mate.background picture-filename "
  const I3CommandHead: string := "feh --bg-scale "

  /** The `command` entry of the detected environment: a template whose
      placeholder is the save location. XFCE is detected without one. */
  function Command(d: DesktopKind): (t: Option<seq<Piece>>)
    ensures t.Some? <==> d != Xfce
  {
    match d
    case Kde => Some([Text(KdeScriptHead), Location, Text(KdeScriptTail)])
    case Gnome => Some([Text(GnomeCommandHead), Location])
    case Lubuntu => Some([Text(LubuntuCommandHead), Location, Text(LubuntuCommandTail)])
    case Mate => Some([Text(MateCommandHead), Location])
    case I3 => Some([Text(I3CommandHead), Location])
    case Xfce => None
  }

  /** The outcome of detection: an environment, the empty environment `{}`
      when nothing matched, or `None` when the probe raised. */
  datatype Detection = Detected(desktop: DesktopKind) | Unrecognized | ProbeFailed

  type Environ = map<string, string>

  /** `os.environ.get(name)`. */
  function Lookup(env: Environ, name: string): Option<string> {
    if name in env then Some(env[name]) else None
  }

  /** What the `xprop -root _DT_SAVE_MODE` output must contain for XFCE. */
  const XfceMarker: string := " = \"xfce4\""

  /** What the probe alone decides. */
  function ProbeVerdict(probe: Option<string>): Detection {
    match probe
    case None => ProbeFailed
    case Some(info) => if Contains(info, XfceMarker) then Detected(Xfce) else Unrecognized
  }

  /** The environment checks, first to last; the first that holds wins, and
      only when none holds is the probe consulted. */
  function Detect(env: Environ, probe: Option<string>): (r: Detection)
    ensures r == ProbeFailed ==> probe.None?
    ensures probe.None? && r != ProbeFailed ==> r.Detected? && r.desktop != Xfce
    ensures r == Detected(Xfce) ==> probe.Some? && Contains(probe.value, XfceMarker)
  {
    if Lookup(env, "KDE_FULL_SESSION") == Some("true") then Detected(Kde)
    else if Lookup(env, "GNOME_DESKTOP_SESSION_ID").Some? && Lookup(env, "GNOME_DESKTOP_SESSION_ID").value != "" then Detected(Gnome)
    else if Lookup(env, "DESKTOP_SESSION") == Some("Lubuntu") then Detected(Lubuntu)
    else if Lookup(env, "DESKTOP_SESSION") == Some("mate") then Detected(Mate)
    else if Lookup(env, "DESKTOP_SESSION") == Some("i3") then Detected(I3)
    else ProbeVerdict(probe)
  }

  // ---- The same checks as an ordered table ----

  /** One environment check: a variable equal to a value, or a variable set
      to a non-empty value. */
  datatype Rule =
    | Equals(variable: string, value: string, target: DesktopKind)
    | NonEmpty(variable: string, target: DesktopKind)

  predicate Fires(r: Rule, env: Environ) {
    match r
    case Equals(v, x, _) => v in env && env[v] == x
    case NonEmpty(v, _) => v in env && env[v] != ""
  }

  const Rules: seq<Rule> := [
    Equals("KDE_FULL_SESSION", "true", Kde),
    NonEmpty("GNOME_DESKTOP_SESSION_ID", Gnome),
    Equals("DESKTOP_SESSION", "Lubuntu", Lubuntu),
    Equals("DESKTOP_SESSION", "mate", Mate),
    Equals("DESKTOP_SESSION", "i3", I3)
  ]

  /** The index of the first rule that fires, `|rules|` when none does. */
  function FirstFiring(rules: seq<Rule>, env: Environ): (k: nat)
    ensures k <= |rules|
    ensures forall j :: 0 <= j < k ==> !Fires(rules[j], env)
    ensures k < |rules| ==> Fires(rules[k], env)
  {
    if |rules| == 0 then 0
    else if Fires(rules[0], env) then 0
    else 1 + FirstFiring(rules[1..], env)
  }

  /** The target of the first rule that fires. */
  function FirstMatch(rules: seq<Rule>, env: Environ): Option<DesktopKind> {
    var k := FirstFiring(rules, env);
    if k < |rules| then Some(rules[k].target) else None
  }

  /** Detection is the first-match reading of the rule table, falling back to
      the probe. */
  lemma DetectFollowsRuleTable(env: Environ, probe: Option<string>)
    ensures Detect(env, probe) == match FirstMatch(Rules, env)
      case Some(d) => Detected(d)
      case None => ProbeVerdict(probe)
  {
    var r1 := Rules[1..];
    var r2 := r1[1..];
    var r3 := r2[1..];
    var r4 := r3[1..];
    assert r4 == [Rules[4]];
    assert r4[1..] == [];
    var k := FirstFiring(Rules, env);
    if Fires(Rules[0], env) {
      assert k == 0;
    } else if Fires(Rules[1], env) {
      assert k == 1;
    } else if Fires(Rules[2], env) {
      assert k == 2;
    } else if Fires(Rules[3], env) {
      assert k == 3;
    } else if Fires(Rules[4], env) {
      assert k == 4;
    } else {
      assert k == 5;
    }
  }

  /** The probe matters only when no environment variable decided. */
  lemma ProbeConsultedLast(env: Environ, p1: Option<string>, p2: Option<string>)
    requires FirstMatch(Rules, env).Some?
    ensures Detect(env, p1) == Detect(env, p2)
    ensures Detect(env, p1).Detected? && Detect(env, p1).desktop != Xfce
  {
    DetectFollowsRuleTable(env, p1);
    DetectFollowsRuleTable(env, p2);
    var k := FirstFiring(Rules, env);
    assert Rules[k].target != Xfce;
  }

  /** A non-empty `GNOME_DESKTOP_SESSION_ID` gives GNOME unless KDE claimed
      the session first; XFCE is only ever found by the probe. */
  lemma DetectGnome(env: Environ, probe: Option<string>)
    ensures Detect(env, probe) == Detected(Gnome) <==>
      Lookup(env, "KDE_FULL_SESSION") != Some("true") &&
      "GNOME_DESKTOP_SESSION_ID" in env && env["GNOME_DESKTOP_SESSION_ID"] != ""
  {
  }

  /** `DESKTOP_SESSION` decides only after KDE and GNOME, and its values
      compare exactly: `lubuntu` in lower case names no desktop. */
  lemma DesktopSessionExact(env: Environ, probe: Option<string>, d: DesktopKind, v: string)
    requires (d == Lubuntu && v == "Lubuntu") || (d == Mate && v == "mate") || (d == I3 && v == "i3")
    ensures Detect(env, probe) == Detected(d) <==>
      && Lookup(env, "KDE_FULL_SESSION") != Some("true")
      && !("GNOME_DESKTOP_SESSION_ID" in env && env["GNOME_DESKTOP_SESSION_ID"] != "")
      && Lookup(env, "DESKTOP_SESSION") == Some(v)
  {
  }

  /** XFCE comes only from the probe's output. */
  lemma DetectXfce(env: Environ, probe: Option<string>)
    ensures Detect(env, probe) == Detected(Xfce) <==>
      FirstMatch(Rules, env).None? && probe.Some? && Contains(probe.value, XfceMarker)
  {
    DetectFollowsRuleTable(env, probe);
    if FirstMatch(Rules, env).Some? {
      ProbeConsultedLast(env, probe, probe);
    }
  }

  // ---- The dispatch gate ----

  const SupportedLinuxDesktops: seq<string> := ["gnome", "mate", "kde", "lubuntu", "i3"]

  datatype Action = Run(command: string) | Unsupported

  /** The supported names are exactly those of the environments that have a
      command: only XFCE is detected without being supported. */
  lemma SupportedExactlyWithCommand(d: DesktopKind)
    ensures Name(d) in SupportedLinuxDesktops <==> Command(d).Some?
  {
  }

  /** A command is run only for a detected environment whose name is
      supported; it is what `command.format(save_location=…)` yields for the
      environment's template as written, braces escaped, so formatting never
      raises. Anything else prints "Unsupported desktop environment". */
  function LinuxAction(det: Detection, location: string): (a: Action)
    ensures a.Run? <==> det.Detected? && det.desktop != Xfce
    ensures a.Run? ==> Format(Render(Command(det.desktop).value), location) == Success(a.command)
  {
    if det.Detected? && Name(det.desktop) in SupportedLinuxDesktops then
      FormatRender(Command(det.desktop).value, location);
      Run(Substitute(Command(det.desktop).value, location))
    else Unsupported
  }

  /** Every command run mentions the save location. */
  lemma CommandMentionsLocation(det: Detection, location: string)
    ensures LinuxAction(det, location).Run? ==> Contains(LinuxAction(det, location).command, location)
  {
    if !LinuxAction(det, location).Run? {
      return;
    }
    var t := Command(det.desktop).value;
    var cmd := LinuxAction(det, location).command;
    var head := PieceText(t[0], location);
    if |t| == 3 {
      SubstituteAround(head, PieceText(t[2], location), location);
    } else {
      SubstituteBefore(head, location);
      assert cmd == head + location + "";
    }
    assert location <= cmd[|head|..];
  }

  lemma SubstituteBefore(head: string, location: string)
    ensures Substitute([Text(head), Location], location) == head + location
  {
    SubstituteCons(Location, [], location);
    assert [Location] + [] == [Location];
    SubstituteCons(Text(head), [Location], location);
    assert [Text(head)] + [Location] == [Text(head), Location];
  }

  lemma SubstituteAround(head: string, tail: string, location: string)
    ensures Substitute([Text(head), Location, Text(tail)], location) == head + location + tail
  {
    SubstituteCons(Text(tail), [], location);
    assert [Text(tail)] + [] == [Text(tail)];
    SubstituteCons(Location, [Text(tail)], location);
    assert [Location] + [Text(tail)] == [Location, Text(tail)];
    SubstituteCons(Text(head), [Location, Text(tail)], location);
    assert [Text(head)] + [Location, Text(tail)] == [Text(head), Location, Text(tail)];
  }

  /** The command for each environment, spelled out. */
  lemma Commands(location: string)
    ensures Substitute(Command(Gnome).value, location) ==
      "gsettings set org.gnome.desktop.background picture-uri file://" + location
    ensures Substitute(Command(Lubuntu).value, location) == "pcmanfm -w " + location + " --wallpaper-mode=fit"
    ensures Substitute(Command(Mate).value, location) == "gsettings set org.mate.background picture-filename " + location
    ensures Substitute(Command(I3).value, location) == "feh --bg-scale " + location
    ensures Substitute(Command(Kde).value, location) == KdeScriptHead + location + KdeScriptTail
  {
    SubstituteBefore("gsettings set org.gnome.desktop.background picture-uri file://", location);
    SubstituteAround("pcmanfm -w ", " --wallpaper-mode=fit", location);
    SubstituteBefore("gsettings set org.mate.background picture-filename ", location);
    SubstituteBefore("feh --bg-scale ", location);
    SubstituteAround(KdeScriptHead, KdeScriptTail, location);
  }

  /** With no recognised signal and a probe that does not report XFCE, the
      result is "unsupported". */
  lemma NoSignalIsUnsupported(probe: Option<string>, location: string)
    requires probe.Some? ==> !Contains(probe.value, XfceMarker)
    ensures LinuxAction(Detect(map[], probe), location) == Unsupported
  {
    var env: Environ := map[];
    assert Detect(env, probe) == ProbeVerdict(probe);
    assert !Detect(env, probe).Detected?;
  }
}

=== FILE: imagepath.dfy ===
/** Where the downloaded image goes: the image id and file type taken from
    the image URL, and the save location under the output directory with `~`
    expanded to the home directory. */
module ImagePath {
  import opened Wrappers
  import opened PyStr

  /** The text of the URL's last `/`-segment up to its first `.`. */
  function ImageId(url: string): (id: string)
    ensures '/' !in id && '.' !in id
  {
    var segment := Last(Split(url, '/'));
    SplitNoSeparatorKept(segment, '/', '.');
    Split(segment, '.')[0]
  }

  /** The text after the last `.` of the whole URL (not of its last segment). */
  function ImageType(url: string): (t: string)
    ensures '.' !in t
  {
    Last(Split(url, '.'))
  }

  /** Pieces of a string free of one character stay free of it. */
  lemma SplitNoSeparatorKept(s: string, absent: char, sep: char)
    requires absent !in s
    ensures forall i :: 0 <= i < |Split(s, sep)| ==> absent !in Split(s, sep)[i]
  {
    JoinOfSplit(s, sep);
    var parts := Split(s, sep);
    forall i | 0 <= i < |parts| ensures absent !in parts[i] {
      JoinHoldsEachPiece(parts, [sep], i);
    }
  }

  lemma {:induction false} JoinHoldsEachPiece(parts: seq<string>, sep: string, i: int)
    requires 0 <= i < |parts|
    ensures forall ch :: ch in parts[i] ==> ch in Join(parts, sep)
    decreases |parts|
  {
    if |parts| > 1 && i > 0 {
      JoinHoldsEachPiece(parts[1..], sep, i - 1);
    }
  }

  /** The id is where the source says it is: the last segment of the URL is
      its longest `/`-free suffix, and the id is that segment's longest
      `.`-free prefix. */
  lemma ImageIdLocation(url: string)
    ensures var seg := Last(Split(url, '/'));
      && |seg| <= |url| && url[|url| - |seg|..] == seg
      && (|seg| == |url| || url[|url| - |seg| - 1] == '/')
      && ImageId(url) <= seg
      && (|ImageId(url)| == |seg| || seg[|ImageId(url)|] == '.')
  {
    LastPieceIsSuffix(url, '/');
    FirstPieceIsPrefix(Last(Split(url, '/')), '.');
  }

  /** The type is the URL's longest `.`-free suffix. */
  lemma ImageTypeLocation(url: string)
    ensures var t := ImageType(url);
      |t| <= |url| && url[|url| - |t|..] == t && (|t| == |url| || url[|url| - |t| - 1] == '.')
  {
    LastPieceIsSuffix(url, '.');
  }

  /** A URL ending in `/<id>.<type>` yields that id and that type back. */
  lemma ImageNameRoundTrip(prefix: string, id: string, ext: string)
    requires |prefix| > 0 && Last(prefix) == '/'
    requires '/' !in id && '.' !in id && '/' !in ext && '.' !in ext
    ensures ImageId(prefix + id + "." + ext) == id
    ensures ImageType(prefix + id + "." + ext) == ext
  {
    var url := prefix + id + "." + ext;
    var head := prefix[..|prefix| - 1];
    var name := id + "." + ext;
    assert url == head + ['/'] + name;
    assert '/' !in name;
    LastPieceAfter(head, '/', name);
    assert name == id + ['.'] + ext;
    FirstPieceBefore(id, '.', ext);
    assert url == (prefix + id) + ['.'] + ext;
    LastPieceAfter(prefix + id, '.', ext);
  }

  /** An example URL. */
  lemma ImageNameExample()
    ensures ImageId("https://host/full/1234.jpg") == "1234"
    ensures ImageType("https://host/full/1234.jpg") == "jpg"
  {
    assert "https://host/full/1234.jpg" == "https://host/full/" + "1234" + "." + "jpg";
    ImageNameRoundTrip("https://host/full/", "1234", "jpg");
  }

  /** Without a `.` in the last segment the id is the whole segment ... */
  lemma ImageIdWithoutExtension(url: string)
    requires '.' !in Last(Split(url, '/'))
    ensures ImageId(url) == Last(Split(url, '/'))
  {
    SplitNoSeparator(Last(Split(url, '/')), '.');
  }

  /** ... while the type is whatever follows the URL's last `.`, wherever
      that `.` is: for `https://h/a.b/abc` it is `b/abc`, path and all. */
  lemma ImageTypeWithoutExtension(a: string, b: string)
    requires '.' !in b
    ensures ImageType(a + "." + b) == b
  {
    assert a + "." + b == a + ['.'] + b;
    LastPieceAfter(a, '.', b);
  }

  /** A URL with no `.` at all is its own type. */
  lemma ImageTypeWithoutDot(url: string)
    requires '.' !in url
    ensures ImageType(url) == url
  {
    SplitNoSeparator(url, '.');
  }

  /** The save location as the script computes it: only assigned when the
      output directory contains `~`, every `~` then replaced by the home
      directory. `None` stands for the name left unbound. */
  function SaveLocationAsWritten(outputDir: string, home: string, id: string, ext: string): (r: Option<string>)
    ensures r.Some? <==> '~' in outputDir
    ensures r.Some? ==> r.value == Join(Split(outputDir, '~'), home) + "/" + id + "." + ext
  {
    ReplaceIsJoinOfSplit(outputDir, '~', home);
    if '~' in outputDir then Some(Replace(outputDir, '~', home) + "/" + id + "." + ext)
    else None
  }

  /** The save location as evidently intended: the directory (with every `~`
      expanded) and the file name `<id>.<type>`, for any output directory. */
  function SaveLocation(outputDir: string, home: string, id: string, ext: string): (r: string)
    ensures '~' !in outputDir ==> r == outputDir + "/" + id + "." + ext
    ensures r == Join(Split(outputDir, '~'), home) + "/" + id + "." + ext
  {
    ReplaceIsJoinOfSplit(outputDir, '~', home);
    (if '~' in outputDir then Replace(outputDir, '~', home) else outputDir) + "/" + id + "." + ext
  }

  /** Where the script does assign a location, it is the intended one. */
  lemma SaveLocationAgreesWhereAssigned(outputDir: string, home: string, id: string, ext: string)
    ensures SaveLocationAsWritten(outputDir, home, id, ext).Some? ==>
      SaveLocationAsWritten(outputDir, home, id, ext).value == SaveLocation(outputDir, home, id, ext)
  {
  }

  /** An output directory without `~` leaves the location unassigned, where
      the intended location is simply under that directory. */
  lemma SaveLocationUnassignedWithoutTilde(home: string, id: string, ext: string)
    ensures SaveLocationAsWritten("/tmp/walls", home, id, ext) == None
    ensures SaveLocation("/tmp/walls", home, id, ext) == "/tmp/walls" + "/" + id + "." + ext
  {
    assert '~' !in "/tmp/walls";
  }

  /** No `~` survives in the directory part when the home directory has
      none. */
  lemma EveryTildeExpanded(outputDir: string, home: string)
    requires '~' !in home
    ensures '~' !in Replace(outputDir, '~', home)
  {
  }

  /** Not only a leading `~` is expanded: a single `~` anywhere in the
      directory is replaced in place. */
  lemma InnerTildeExpanded(a: string, b: string, home: string, id: string, ext: string)
    requires '~' !in a && '~' !in b
    ensures SaveLocation(a + "~" + b, home, id, ext) == a + home + b + "/" + id + "." + ext
  {
    assert a + "~" + b == a + ['~'] + b;
    ReplaceAround(a, '~', home, b);
  }

  /** The default output directory is expanded under the home directory. */
  lemma DefaultOutputExpanded(home: string, id: string, ext: string)
    ensures SaveLocationAsWritten("~/Pictures/Wallpapers", home, id, ext) ==
      Some(home + "/Pictures/Wallpapers" + "/" + id + "." + ext)
  {
    assert "~/Pictures/Wallpapers" == "" + ['~'] + "/Pictures/Wallpapers";
    ReplaceAround("", '~', home, "/Pictures/Wallpapers");
  }
}

=== FILE: pyint.dfy ===
/** Which strings Python's `int(s)` accepts (base 10). Only ASCII input is
    modelled: surrounding whitespace, an optional sign, and decimal digits in
    which single underscores may separate digits. */
module PyInt {
  import opened PyStr

  predicate IsAsciiDigit(ch: char) {
    '0' <= ch <= '9'
  }

  predicate AllDigits(s: string) {
    forall i :: 0 <= i < |s| ==> IsAsciiDigit(s[i])
  }

  /** The ASCII whitespace `int()` skips: space and `\t` through `\r`. The
      separators `\x1c` through `\x1f`, which `str.isspace()` accepts, are not
      skipped in an all-ASCII string. */
  predicate IsSpace(ch: char) {
    ch == ' ' || '\U{9}' <= ch <= '\U{D}'
  }

  /** Leading whitespace removed: the longest suffix not starting with a space. */
  function TrimStart(s: string): (r: string)
    ensures |r| <= |s| && r == s[|s| - |r|..]
    ensures forall i :: 0 <= i < |s| - |r| ==> IsSpace(s[i])
    ensures |r| > 0 ==> !IsSpace(r[0])
    decreases |s|
  {
    if |s| > 0 && IsSpace(s[0]) then TrimStart(s[1..]) else s
  }

  /** Trailing whitespace removed: the longest prefix not ending in a space. */
  function TrimEnd(s: string): (r: string)
    ensures |r| <= |s| && r == s[..|r|]
    ensures forall i :: |r| <= i < |s| ==> IsSpace(s[i])
    ensures |r| > 0 ==> !IsSpace(r[|r| - 1])
    decreases |s|
  {
    if |s| > 0 && IsSpace(s[|s| - 1]) then TrimEnd(s[..|s| - 1]) else s
  }

  function Strip(s: string): string {
    TrimEnd(TrimStart(s))
  }

  /** Position `i` of `t` holds a digit, or an underscore with a digit on
      both sides. */
  predicate DigitOrInnerUnderscore(t: string, i: int)
    requires 0 <= i < |t|
  {
    IsAsciiDigit(t[i]) ||
    (t[i] == '_' && 0 < i < |t| - 1 && IsAsciiDigit(t[i - 1]) && IsAsciiDigit(t[i + 1]))
  }

  /** The digit part of a base-10 literal: `"1920"`, `"1_000"`, not `"_1"`,
      `"1_"` or `"1__0"`. */
  predicate IsDigitRun(t: string) {
    |t| > 0 && forall i :: 0 <= i < |t| ==> DigitOrInnerUnderscore(t, i)
  }

  /** `int(s)` succeeds: the stripped text is non-empty, and a plain digit
      string always succeeds. */
  function IsPyInt(s: string): (b: bool)
    ensures b ==> |Strip(s)| > 0
    ensures |s| > 0 && AllDigits(s) ==> b
  {
    PlainDigitsAreARun(s);
    var t := Strip(s);
    if |t| > 0 && (t[0] == '+' || t[0] == '-') then IsDigitRun(t[1..]) else IsDigitRun(t)
  }

  /** Every piece is a non-empty string of digits. */
  predicate AllDigitGroups(parts: seq<string>) {
    forall j :: 0 <= j < |parts| ==> |parts[j]| > 0 && AllDigits(parts[j])
  }

  lemma {:induction false} DigitRunOfJoin(parts: seq<string>)
    requires |parts| >= 1
    requires forall j :: 0 <= j < |parts| ==> '_' !in parts[j]
    ensures IsDigitRun(Join(parts, "_")) <==> AllDigitGroups(parts)
    decreases |parts|
  {
    if |parts| == 1 {
      var p := parts[0];
      assert Join(parts, "_") == p;
      if IsDigitRun(p) {
        forall i | 0 <= i < |p| ensures IsAsciiDigit(p[i]) {
          assert DigitOrInnerUnderscore(p, i);
        }
      }
      if AllDigitGroups(parts) {
        forall i | 0 <= i < |p| ensures DigitOrInnerUnderscore(p, i) {
          assert IsAsciiDigit(p[i]);
        }
      }
    } else {
      var p := parts[0];
      var ps := parts[1..];
      var j := Join(ps, "_");
      var t := Join(parts, "_");
      assert t == p + "_" + j;
      DigitRunOfJoin(ps);
      if IsDigitRun(t) {
        assert DigitOrInnerUnderscore(t, |p|);
        assert |p| > 0 && |j| > 0;
        forall i | 0 <= i < |p| ensures IsAsciiDigit(p[i]) {
          assert t[i] == p[i];
          assert DigitOrInnerUnderscore(t, i);
        }
        forall k | 0 <= k < |j| ensures DigitOrInnerUnderscore(j, k) {
          assert t[|p| + 1 + k] == j[k];
          assert DigitOrInnerUnderscore(t, |p| + 1 + k);
          if k > 0 {
            assert t[|p| + k] == j[k - 1];
          }
          if k < |j| - 1 {
            assert t[|p| + 2 + k] == j[k + 1];
          }
        }
        assert IsDigitRun(j);
        forall q | 0 <= q < |parts| ensures |parts[q]| > 0 && AllDigits(parts[q]) {
          if q > 0 {
            assert parts[q] == ps[q - 1];
          }
        }
      }
      if AllDigitGroups(parts) {
        assert AllDigitGroups(ps) by {
          forall q | 0 <= q < |ps| ensures |ps[q]| > 0 && AllDigits(ps[q]) {
            assert ps[q] == parts[q + 1];
          }
        }
        assert IsDigitRun(j);
        assert DigitOrInnerUnderscore(j, 0);
        forall i | 0 <= i < |t| ensures DigitOrInnerUnderscore(t, i) {
          if i < |p| {
            assert t[i] == p[i];
          } else if i == |p| {
            assert t[i - 1] == p[|p| - 1];
            assert t[i + 1] == j[0];
          } else {
            var k := i - |p| - 1;
            assert t[i] == j[k];
            assert DigitOrInnerUnderscore(j, k);
            if j[k] == '_' {
              assert t[i - 1] == j[k - 1];
              assert t[i + 1] == j[k + 1];
            }
          }
        }
      }
    }
  }

  /** The underscore rule read the other way: a digit run is exactly a string
      whose `'_'`-separated pieces are all non-empty digit strings. */
  lemma DigitRunIsUnderscoreSeparatedGroups(t: string)
    ensures IsDigitRun(t) <==> AllDigitGroups(Split(t, '_'))
  {
    JoinOfSplit(t, '_');
    DigitRunOfJoin(Split(t, '_'));
  }

  /** Plain digits need no stripping and form a digit run. */
  lemma PlainDigitsAreARun(s: string)
    ensures |s| > 0 && AllDigits(s) ==> Strip(s) == s && IsDigitRun(s)
  {
    if |s| > 0 && AllDigits(s) {
      assert !IsSpace(s[0]);
      assert TrimStart(s) == s;
      assert !IsSpace(s[|s| - 1]);
      assert TrimEnd(s) == s;
      forall i | 0 <= i < |s| ensures DigitOrInnerUnderscore(s, i) {
        assert IsAsciiDigit(s[i]);
      }
    }
  }

  /** Any non-empty string of plain digits is accepted by `int()`. */
  lemma DigitsArePyInt(s: string)
    requires |s| > 0 && AllDigits(s)
    ensures IsPyInt(s)
  {
  }

  /** Characters a string accepted by `int()` may contain. */
  predicate IsIntChar(ch: char) {
    IsAsciiDigit(ch) || IsSpace(ch) || ch == '+' || ch == '-' || ch == '_'
  }

  lemma DigitRunChars(t: string)
    requires IsDigitRun(t)
    ensures forall i :: 0 <= i < |t| ==> IsAsciiDigit(t[i]) || t[i] == '_'
    ensures exists i :: 0 <= i < |t| && IsAsciiDigit(t[i])
  {
    forall i | 0 <= i < |t| ensures IsAsciiDigit(t[i]) || t[i] == '_' {
      assert DigitOrInnerUnderscore(t, i);
    }
    assert DigitOrInnerUnderscore(t, 0);
  }

  /** `Strip(s)` is the slice `s[a..a + |Strip(s)|]` and everything around it
      is whitespace. */
  lemma StripIsSlice(s: string) returns (a: nat)
    ensures a + |Strip(s)| <= |s| && Strip(s) == s[a..a + |Strip(s)|]
    ensures forall i :: 0 <= i < |s| && !(a <= i < a + |Strip(s)|) ==> IsSpace(s[i])
  {
    var u := TrimStart(s);
    a := |s| - |u|;
    var t := TrimEnd(u);
    assert t == Strip(s);
    assert u == s[a..];
    assert t == u[..|t|];
    assert t == s[a..a + |t|];
    forall i | 0 <= i < |s| && !(a <= i < a + |t|) ensures IsSpace(s[i]) {
      if i < a {
        assert i < |s| - |u|;
      } else {
        assert |t| <= i - a < |u|;
        assert IsSpace(u[i - a]);
        assert s[i] == u[i - a];
      }
    }
  }

  /** Everything `int()` accepts is built from digits, whitespace, signs and
      underscores, and holds at least one digit. */
  lemma PyIntAlphabet(s: string)
    requires IsPyInt(s)
    ensures forall i :: 0 <= i < |s| ==> IsIntChar(s[i])
    ensures exists i :: 0 <= i < |s| && IsAsciiDigit(s[i])
  {
    var t := Strip(s);
    var a := StripIsSlice(s);
    var d := if |t| > 0 && (t[0] == '+' || t[0] == '-') then 1 else 0;
    var run := t[d..];
    assert IsDigitRun(run);
    DigitRunChars(run);
    forall i | 0 <= i < |t| ensures IsIntChar(t[i]) {
      if i >= d {
        assert t[i] == run[i - d];
      }
    }
    forall i | 0 <= i < |s| ensures IsIntChar(s[i]) {
      if a <= i < a + |t| {
        assert s[i] == t[i - a];
      }
    }
    var k :| 0 <= k < |run| && IsAsciiDigit(run[k]);
    assert s[a + d + k] == run[k];
  }

  function DigitChar(d: nat): (ch: char)
    requires d < 10
    ensures IsAsciiDigit(ch)
  {
    ('0' as int + d) as char
  }

  /** `str(n)` for a natural number. */
  function NatToString(n: nat): (r: string)
    ensures |r| > 0 && AllDigits(r)
  {
    if n < 10 then [DigitChar(n)] else NatToString(n / 10) + [DigitChar(n % 10)]
  }

  /** The value of a string of digits, most significant first. */
  function DigitsValue(s: string): nat
    requires AllDigits(s)
  {
    if |s| == 0 then 0
    else DigitsValue(s[..|s| - 1]) * 10 + (s[|s| - 1] as int - '0' as int)
  }

  /** `int(str(n)) == n`: printing a natural number yields a string `int()`
      accepts and reads back as the same number. */
  lemma {:induction false} NatToStringRoundTrip(n: nat)
    ensures IsPyInt(NatToString(n))
    ensures DigitsValue(NatToString(n)) == n
  {
    DigitsArePyInt(NatToString(n));
    if n >= 10 {
      NatToStringRoundTrip(n / 10);
      var r := NatToString(n);
      assert r[..|r| - 1] == NatToString(n / 10);
      assert DigitsValue(r) == DigitsValue(NatToString(n / 10)) * 10 + n % 10;
    }
  }
}

=== FILE: pystr.dfy ===
/** The handful of Python `str` operations the script relies on, written out
    so that their edge cases are explicit: `split` with a one-character
    separator, `join`, `replace` of one character, and the `in` operator. */
module PyStr {

  /** `s.split(sep)`: the pieces between separators, empty pieces included,
      so `"x".split('x')` is `["", ""]` and a string with k separators yields
      k + 1 pieces. */
  function Split(s: string, sep: char): (parts: seq<string>)
    ensures |parts| >= 1
    ensures forall i :: 0 <= i < |parts| ==> sep !in parts[i]
    decreases |s|
  {
    if |s| == 0 then [""] else Attach(s[0], sep, Split(s[1..], sep))
  }

  /** The pieces of `[ch] + t` from the pieces of `t`: a separator starts a
      new empty first piece, any other character joins the first piece. */
  function Attach(ch: char, sep: char, rest: seq<string>): (parts: seq<string>)
    requires |rest| >= 1
    ensures |parts| >= 1
    ensures (forall i :: 0 <= i < |rest| ==> sep !in rest[i]) ==>
      forall i :: 0 <= i < |parts| ==> sep !in parts[i]
  {
    if ch == sep then [""] + rest else [[ch] + rest[0]] + rest[1..]
  }

  /** `sep.join(parts)`. */
  function Join(parts: seq<string>, sep: string): (r: string)
    ensures |parts| > 0 ==> parts[0] <= r
  {
    if |parts| == 0 then ""
    else if |parts| == 1 then parts[0]
    else parts[0] + sep + Join(parts[1..], sep)
  }

  /** Python's `seq[-1]`. */
  function Last<T>(s: seq<T>): T
    requires |s| > 0
  {
    s[|s| - 1]
  }

  /** `s.replace(target, repl)` for a one-character `target`: every occurrence
      is replaced, not only a leading one. */
  function Replace(s: string, target: char, repl: string): (r: string)
    ensures target !in s ==> r == s
    ensures target !in repl ==> target !in r
    decreases |s|
  {
    if |s| == 0 then ""
    else (if s[0] == target then repl else [s[0]]) + Replace(s[1..], target, repl)
  }

  /** `sub in s` for two strings: `sub` occurs in `s` as a contiguous slice. */
  function Contains(s: string, sub: string): (b: bool)
    ensures sub <= s ==> b
    ensures b ==> |sub| <= |s|
  {
    assert s[0..] == s;
    exists i :: 0 <= i <= |s| && sub <= s[i..]
  }

  /** A string without the separator is a single piece. */
  lemma {:induction false} SplitNoSeparator(s: string, sep: char)
    requires sep !in s
    ensures Split(s, sep) == [s]
    decreases |s|
  {
    if |s| > 0 {
      SplitNoSeparator(s[1..], sep);
      assert [s[0]] + s[1..] == s;
    }
  }

  /** Attaching a character to the front of two piece lists touches only the
      first list. */
  lemma AttachAppend(ch: char, sep: char, left: seq<string>, right: seq<string>)
    requires |left| >= 1
    ensures Attach(ch, sep, left + right) == Attach(ch, sep, left) + right
  {
    if ch != sep {
      assert (left + right)[1..] == left[1..] + right;
    }
  }

  /** Splitting distributes over a separator occurrence. */
  lemma {:induction false} SplitAppend(a: string, sep: char, b: string)
    ensures Split(a + [sep] + b, sep) == Split(a, sep) + Split(b, sep)
    decreases |a|
  {
    var s := a + [sep] + b;
    if |a| == 0 {
      assert s == [sep] + b;
      assert s[1..] == b;
    } else {
      assert s[1..] == a[1..] + [sep] + b;
      SplitAppend(a[1..], sep, b);
      AttachAppend(a[0], sep, Split(a[1..], sep), Split(b, sep));
    }
  }

  /** Splitting undoes joining with the same separator. */
  lemma {:induction false} SplitOfJoin(parts: seq<string>, sep: char)
    requires |parts| >= 1
    requires forall i :: 0 <= i < |parts| ==> sep !in parts[i]
    ensures Split(Join(parts, [sep]), sep) == parts
    decreases |parts|
  {
    if |parts| == 1 {
      SplitNoSeparator(parts[0], sep);
    } else {
      SplitOfJoin(parts[1..], sep);
      SplitAppend(parts[0], sep, Join(parts[1..], [sep]));
      SplitNoSeparator(parts[0], sep);
      assert [parts[0]] + parts[1..] == parts;
    }
  }

  /** Joining after an empty first piece puts a separator in front. */
  lemma JoinEmptyHead(rest: seq<string>, sep: string)
    requires |rest| >= 1
    ensures Join([""] + rest, sep) == sep + Join(rest, sep)
  {
    var parts := [""] + rest;
    assert parts[1..] == rest;
  }

  /** Joining after a character is added to the first piece adds it in front. */
  lemma JoinExtendHead(ch: char, rest: seq<string>, sep: string)
    requires |rest| >= 1
    ensures Join([[ch] + rest[0]] + rest[1..], sep) == [ch] + Join(rest, sep)
  {
    var parts := [[ch] + rest[0]] + rest[1..];
    if |rest| > 1 {
      assert parts[1..] == rest[1..];
      var more := Join(rest[1..], sep);
      assert ([ch] + rest[0]) + sep + more == [ch] + (rest[0] + sep + more);
    }
  }

  /** Python's `s.replace(c, r)` is `r.join(s.split(c))`. */
  lemma {:induction false} ReplaceIsJoinOfSplit(s: string, target: char, repl: string)
    ensures Replace(s, target, repl) == Join(Split(s, target), repl)
    decreases |s|
  {
    if |s| > 0 {
      ReplaceIsJoinOfSplit(s[1..], target, repl);
      var rest := Split(s[1..], target);
      if s[0] != target {
        JoinExtendHead(s[0], rest, repl);
      } else {
        JoinEmptyHead(rest, repl);
      }
    }
  }

  /** Replacing works piecewise over a concatenation. */
  lemma {:induction false} ReplaceAppend(a: string, b: string, target: char, repl: string)
    ensures Replace(a + b, target, repl) == Replace(a, target, repl) + Replace(b, target, repl)
    decreases |a|
  {
    if |a| > 0 {
      ReplaceAppend(a[1..], b, target, repl);
      var head := if a[0] == target then repl else [a[0]];
      assert (a + b)[0] == a[0];
      assert (a + b)[1..] == a[1..] + b;
      assert Replace(a + b, target, repl) == head + Replace(a[1..] + b, target, repl);
      assert Replace(a, target, repl) == head + Replace(a[1..], target, repl);
    } else {
      assert a + b == b;
    }
  }

  /** A single occurrence between two target-free strings is replaced. */
  lemma ReplaceAround(a: string, target: char, repl: string, b: string)
    requires target !in a && target !in b
    ensures Replace(a + [target] + b, target, repl) == a + repl + b
  {
    ReplaceAppend(a + [target], b, target, repl);
    ReplaceAppend(a, [target], target, repl);
  }

  /** Replacing a character by itself changes nothing. */
  lemma {:induction false} ReplaceByItself(s: string, c: char)
    ensures Replace(s, c, [c]) == s
    decreases |s|
  {
    if |s| > 0 {
      ReplaceByItself(s[1..], c);
      assert [s[0]] + s[1..] == s;
    }
  }

  /** Joining the pieces back with the separator restores the string. */
  lemma JoinOfSplit(s: string, sep: char)
    ensures Join(Split(s, sep), [sep]) == s
  {
    ReplaceIsJoinOfSplit(s, sep, [sep]);
    ReplaceByItself(s, sep);
  }

  /** Exactly two pieces means exactly one separator, with the pieces on
      either side of it. */
  lemma SplitIntoTwo(s: string, sep: char, a: string, b: string)
    ensures Split(s, sep) == [a, b] <==> s == a + [sep] + b && sep !in a && sep !in b
  {
    if Split(s, sep) == [a, b] {
      JoinOfSplit(s, sep);
      assert Join([a, b], [sep]) == a + [sep] + Join([b], [sep]);
    }
    if s == a + [sep] + b && sep !in a && sep !in b {
      SplitAppend(a, sep, b);
      SplitNoSeparator(a, sep);
      SplitNoSeparator(b, sep);
    }
  }

  /** The first piece is the longest prefix free of the separator. */
  lemma {:induction false} FirstPieceIsPrefix(s: string, sep: char)
    ensures var f := Split(s, sep)[0];
      f <= s && (|f| == |s| || s[|f|] == sep)
    decreases |s|
  {
    if |s| > 0 && s[0] != sep {
      FirstPieceIsPrefix(s[1..], sep);
    }
  }

  /** The last piece is the longest suffix free of the separator. */
  lemma {:induction false} LastPieceIsSuffix(s: string, sep: char)
    ensures var l := Last(Split(s, sep));
      |l| <= |s| && s[|s| - |l|..] == l && (|l| == |s| || s[|s| - |l| - 1] == sep)
    decreases |s|
  {
    if |s| > 0 {
      LastPieceIsSuffix(s[1..], sep);
      var rest := Split(s[1..], sep);
      if s[0] != sep && |rest| == 1 {
        JoinOfSplit(s[1..], sep);
        assert Last(Split(s, sep)) == [s[0]] + s[1..] == s;
      } else {
        var l := Last(rest);
        assert Last(Split(s, sep)) == l;
        assert s[|s| - |l|..] == s[1..][|s| - 1 - |l|..];
        if |l| == |s| - 1 && s[0] != sep {
          assert s[1..] == l;
          SplitNoSeparator(s[1..], sep);
        }
      }
    }
  }

  /** The first piece after a separator-free prefix is that prefix. */
  lemma FirstPieceBefore(a: string, sep: char, b: string)
    requires sep !in a
    ensures Split(a + [sep] + b, sep)[0] == a
  {
    SplitAppend(a, sep, b);
    SplitNoSeparator(a, sep);
  }

  /** The last piece after a separator-free suffix is that suffix. */
  lemma LastPieceAfter(a: string, sep: char, b: string)
    requires sep !in b
    ensures Last(Split(a + [sep] + b, sep)) == b
  {
    SplitAppend(a, sep, b);
    SplitNoSeparator(b, sep);
  }
}

=== FILE: script.dfy ===
/** The pure part of the script's main flow on Linux, from the resolved
    options to the command that sets the wallpaper. The image URL returned by
    the search, the home directory, the process environment and the output of
    the `xprop` probe are inputs. */
module Script {
  import opened Wrappers
  import opened PyStr
  import opened Validators
  import opened Settings
  import opened Search
  import opened ImagePath
  import opened Desktop

  /** What a run computes: the search request, the file the image is saved
      to, and what is done to set it as the wallpaper. */
  datatype Plan = Plan(searchUrl: string, saveLocation: string, action: Action)

  /** The search as the script sends it: the flags are resolved and
      validated, but the URL is built from the loaded configuration. */
  function SearchAsWritten(c: Config, a: Args): (r: Result<string, OptionError>)
    ensures r.Success? <==> IsValidConfig(Overlay(c, a)) && DisplayParses(a)
    ensures r.Success? && IsValidConfig(c) ==> QueryParameters(r.value) == Some(Parameters(c))
  {
    var _ :- Resolve(c, a);
    ValidConfigRoundTrip(c);
    Success(SearchUrl(c))
  }

  /** Read back, the URL of a valid configuration yields its parameters. */
  lemma ValidConfigRoundTrip(c: Config)
    ensures IsValidConfig(c) ==> QueryParameters(SearchUrl(c)) == Some(Parameters(c))
  {
    if IsValidConfig(c) {
      ValidSearchUrlRoundTrip(c);
    }
  }

  /** As written, the flags decide only whether the search goes ahead: any
      two sets of flags that both parse send the same request. */
  lemma SearchAsWrittenIgnoresFlags(c: Config, a1: Args, a2: Args)
    requires SearchAsWritten(c, a1).Success? && SearchAsWritten(c, a2).Success?
    ensures SearchAsWritten(c, a1) == SearchAsWritten(c, a2)
  {
  }

  /** The search as evidently intended: built from the resolved options, so
      that a flag wins over the configuration value. */
  function SearchForOptions(c: Config, a: Args): (r: Result<string, OptionError>)
    ensures r.Success? <==> Resolve(c, a).Success?
    ensures r.Success? ==> QueryParameters(r.value) == Some(Parameters(Overlay(c, a)))
  {
    var options :- Resolve(c, a);
    ValidSearchUrlRoundTrip(options);
    Success(SearchUrl(options))
  }

  /** A valid `--sorting` flag is accepted, yet the script as written still
      searches with the configured sort order; the intended search uses the
      flag's value. */
  lemma SortingFlagIgnored(c: Config, v: string)
    requires IsValidConfig(c) && Sorting(v).Success?
    ensures var a := NoFlags.(sorting := Some(v));
      && Resolve(c, a) == Success(c.(sorting := v))
      && QueryParameters(SearchAsWritten(c, a).value).value[0] == ("sorting", c.sorting)
      && QueryParameters(SearchForOptions(c, a).value).value[0] == ("sorting", v)
  {
    var a := NoFlags.(sorting := Some(v));
    assert Overlay(c, a) == c.(sorting := v);
    ValidSearchUrlRoundTrip(c);
  }

  /** The concrete case: with the default configuration, `--sorting random`
      is accepted but the request still asks for the toplist. */
  lemma SortingRandomIgnored()
    ensures var a := NoFlags.(sorting := Some("random"));
      && Resolve(DefaultConfig, a).Success?
      && QueryParameters(SearchAsWritten(DefaultConfig, a).value).value[0] == ("sorting", "toplist")
      && QueryParameters(SearchForOptions(DefaultConfig, a).value).value[0] == ("sorting", "random")
  {
    DefaultsAreValid();
    assert Sorting("random").Success?;
    SortingFlagIgnored(DefaultConfig, "random");
  }

  /** As written, a configured sort order the validator rejects still goes
      into the request when `--sorting` is given: the flag's value is the
      only one checked, and the URL is built from the configuration. */
  lemma UncheckedConfigValueSent(c: Config, v: string)
    requires IsValidConfig(c.(sorting := v))
    ensures var r := SearchAsWritten(c, NoFlags.(sorting := Some(v)));
      r.Success? && Endpoint + ("sorting=" + c.sorting) <= r.value
  {
    FlaggedConfigValueUnchecked(c, v);
    SearchUrlIsJoinedItems(c);
    var items := QueryItems(c);
    var j := Join(items, "&");
    assert items[0] <= j;
    assert Endpoint + items[0] <= Endpoint + j;
  }

  /** With no flags given the two readings agree. */
  lemma NoFlagsSameSearch(c: Config)
    ensures SearchAsWritten(c, NoFlags) == SearchForOptions(c, NoFlags)
  {
    assert Overlay(c, NoFlags) == c;
  }

  /** A Linux run after the image URL is known, as evidently intended: the
      save location is defined for every output directory. */
  function LinuxPlan(c: Config, a: Args, imageUrl: string, home: string, env: Environ, probe: Option<string>)
    : (r: Result<Plan, OptionError>)
    ensures r.Success? <==> Resolve(c, a).Success?
    ensures r.Success? ==>
      var o := Overlay(c, a);
      && QueryParameters(r.value.searchUrl) == Some(Parameters(o))
      && r.value.saveLocation == Join(Split(o.output, '~'), home) + "/" + ImageId(imageUrl) + "." + ImageType(imageUrl)
      && (r.value.action.Run? <==> Detect(env, probe).Detected? && Detect(env, probe).desktop != Xfce)
      && (r.value.action.Run? ==> Contains(r.value.action.command, r.value.saveLocation))
  {
    var options :- Resolve(c, a);
    ValidSearchUrlRoundTrip(options);
    var location := SaveLocation(options.output, home, ImageId(imageUrl), ImageType(imageUrl));
    var action := LinuxAction(Detect(env, probe), location);
    CommandMentionsLocation(Detect(env, probe), location);
    Success(Plan(SearchUrl(options), location, action))
  }

  /** On a GNOME session the plan sets the saved file through `gsettings`. */
  lemma GnomeSessionPlan(c: Config, a: Args, imageUrl: string, home: string, env: Environ, probe: Option<string>)
    requires Resolve(c, a).Success?
    requires Detect(env, probe) == Detected(Gnome)
    ensures var r := LinuxPlan(c, a, imageUrl, home, env, probe);
      && r.Success?
      && r.value.saveLocation == SaveLocation(Overlay(c, a).output, home, ImageId(imageUrl), ImageType(imageUrl))
      && r.value.action == Run("gsettings set org.gnome.desktop.background picture-uri file://" + r.value.saveLocation)
  {
    var r := LinuxPlan(c, a, imageUrl, home, env, probe);
    Commands(r.value.saveLocation);
  }

  /** With the default output directory, the image `<prefix><id>.<type>`
      lands at `<home>/Pictures/Wallpapers/<id>.<type>`. */
  lemma DefaultImageLocation(home: string, prefix: string, id: string, ext: string)
    requires |prefix| > 0 && Last(prefix) == '/'
    requires '/' !in id && '.' !in id && '/' !in ext && '.' !in ext
    ensures SaveLocation(DefaultConfig.output, home, ImageId(prefix + id + "." + ext),
                         ImageType(prefix + id + "." + ext))
      == home + "/Pictures/Wallpapers" + "/" + id + "." + ext
  {
    ImageNameRoundTrip(prefix, id, ext);
    DefaultOutputExpanded(home, id, ext);
  }

  /** On a GNOME session, with the configured output directory left at its
      default, an image `<prefix><id>.<type>` is saved under
      `<home>/Pictures/Wallpapers` and that file is set through `gsettings`. */
  lemma GnomeDefaultRun(c: Config, home: string, session: string, prefix: string, id: string, ext: string)
    requires Resolve(c, NoFlags).Success? && c.output == DefaultConfig.output
    requires session != ""
    requires |prefix| > 0 && Last(prefix) == '/'
    requires '/' !in id && '.' !in id && '/' !in ext && '.' !in ext
    ensures var r := LinuxPlan(c, NoFlags, prefix + id + "." + ext, home,
                               map["GNOME_DESKTOP_SESSION_ID" := session], None);
      && r.Success?
      && r.value.saveLocation == home + "/Pictures/Wallpapers" + "/" + id + "." + ext
      && r.value.action == Run("gsettings set org.gnome.desktop.background picture-uri file://" + r.value.saveLocation)
  {
    var env := map["GNOME_DESKTOP_SESSION_ID" := session];
    var url := prefix + id + "." + ext;
    assert "KDE_FULL_SESSION" !in env;
    DetectGnome(env, None);
    GnomeSessionPlan(c, NoFlags, url, home, env, None);
    assert Overlay(c, NoFlags) == c;
    DefaultImageLocation(home, prefix, id, ext);
  }
}

=== FILE: search.dfy ===
/** The search request of `get_wallpaper`: a fixed endpoint followed by six
    query parameters taken from the loaded configuration. */
module Search {
  import opened Wrappers
  import opened PyStr
  import opened Settings

  const Endpoint: string := "https://wallhaven.cc/api/v1/search?"

  /** The search URL for a configuration. */
  function SearchUrl(c: Config): (url: string)
    ensures Endpoint <= url
  {
    Endpoint +
    "sorting=" + c.sorting + "&" +
    "topRange=" + c.toprange + "&" +
    "purity=" + c.purity + "&" +
    "atleast=" + c.atleast + "&" +
    "categories=" + c.categories + "&" +
    "order=" + c.order
  }

  /** The parameters a search is meant to send, in order, as (name, value). */
  function Parameters(c: Config): seq<(string, string)> {
    [("sorting", c.sorting), ("topRange", c.toprange), ("purity", c.purity),
     ("atleast", c.atleast), ("categories", c.categories), ("order", c.order)]
  }

  /** One `name=value` item, split at its first `=`. */
  function KeyValue(item: string): (string, string) {
    var kv := Split(item, '=');
    (kv[0], Join(kv[1..], "="))
  }

  function KeyValues(items: seq<string>): (r: seq<(string, string)>)
    ensures |r| == |items|
  {
    if |items| == 0 then [] else [KeyValue(items[0])] + KeyValues(items[1..])
  }

  /** Reads a URL of the search endpoint back into its parameters; `None`
      for any other URL. */
  function QueryParameters(url: string): Option<seq<(string, string)>> {
    if Endpoint <= url then Some(KeyValues(Split(url[|Endpoint|..], '&'))) else None
  }

  lemma KeyValueOf(key: string, value: string)
    requires '=' !in key
    ensures KeyValue(key + "=" + value) == (key, value)
  {
    SplitAppend(key, '=', value);
    SplitNoSeparator(key, '=');
    var kv := Split(key + "=" + value, '=');
    assert kv[1..] == Split(value, '=');
    JoinOfSplit(value, '=');
  }

  /** The `name=value` items of the query, in order. */
  function QueryItems(c: Config): seq<string> {
    ["sorting=" + c.sorting, "topRange=" + c.toprange, "purity=" + c.purity,
     "atleast=" + c.atleast, "categories=" + c.categories, "order=" + c.order]
  }

  lemma JoinSix(a: string, b: string, c: string, d: string, e: string, f: string, sep: string)
    ensures Join([a, b, c, d, e, f], sep) == a + sep + b + sep + c + sep + d + sep + e + sep + f
  {
    var items := [a, b, c, d, e, f];
    assert items[1..] == [b, c, d, e, f];
    assert items[1..][1..] == [c, d, e, f];
    assert items[1..][1..][1..] == [d, e, f];
    assert items[1..][1..][1..][1..] == [e, f];
    assert items[1..][1..][1..][1..][1..] == [f];
    var j4 := e + sep + f;
    assert Join([e, f], sep) == j4;
    var j3 := d + sep + j4;
    assert Join([d, e, f], sep) == j3;
    var j2 := c + sep + j3;
    assert Join([c, d, e, f], sep) == j2;
    var j1 := b + sep + j2;
    assert Join([b, c, d, e, f], sep) == j1;
    assert Join(items, sep) == a + sep + j1;
    var l2 := a + sep + b + sep + c;
    assert a + sep + j1 == l2 + sep + j3;
    var l4 := l2 + sep + d + sep + e;
    assert l2 + sep + j3 == l4 + sep + f;
  }

  /** Six `key value` items glued by `sep`, read as one join. */
  lemma ConcatIsJoin(e: string, sep: string,
                     k0: string, v0: string, k1: string, v1: string, k2: string, v2: string,
                     k3: string, v3: string, k4: string, v4: string, k5: string, v5: string)
    ensures e + k0 + v0 + sep + k1 + v1 + sep + k2 + v2 + sep + k3 + v3 + sep + k4 + v4 + sep + k5 + v5
         == e + Join([k0 + v0, k1 + v1, k2 + v2, k3 + v3, k4 + v4, k5 + v5], sep)
  {
    JoinSix(k0 + v0, k1 + v1, k2 + v2, k3 + v3, k4 + v4, k5 + v5, sep);
  }

  lemma SearchUrlIsJoinedItems(c: Config)
    ensures SearchUrl(c) == Endpoint + Join(QueryItems(c), "&")
  {
    ConcatIsJoin(Endpoint, "&", "sorting=", c.sorting, "topRange=", c.toprange, "purity=", c.purity,
                 "atleast=", c.atleast, "categories=", c.categories, "order=", c.order);
  }

  lemma KeyValuesOfItems(c: Config)
    ensures KeyValues(QueryItems(c)) == Parameters(c)
  {
    var it := QueryItems(c);
    KeyValueOf("sorting", c.sorting);
    assert "sorting" + "=" + c.sorting == it[0];
    KeyValueOf("topRange", c.toprange);
    assert "topRange" + "=" + c.toprange == it[1];
    KeyValueOf("purity", c.purity);
    assert "purity" + "=" + c.purity == it[2];
    KeyValueOf("atleast", c.atleast);
    assert "atleast" + "=" + c.atleast == it[3];
    KeyValueOf("categories", c.categories);
    assert "categories" + "=" + c.categories == it[4];
    KeyValueOf("order", c.order);
    assert "order" + "=" + c.order == it[5];
    assert KeyValues(it[6..]) == [];
    assert KeyValues(it[5..]) == [KeyValue(it[5])];
    assert KeyValues(it[4..]) == [KeyValue(it[4])] + KeyValues(it[5..]);
    assert KeyValues(it[3..]) == [KeyValue(it[3])] + KeyValues(it[4..]);
    assert KeyValues(it[2..]) == [KeyValue(it[2])] + KeyValues(it[3..]);
    assert KeyValues(it[1..]) == [KeyValue(it[1])] + KeyValues(it[2..]);
    assert KeyValues(it) == [KeyValue(it[0])] + KeyValues(it[1..]);
  }

  /** Read back, the search URL yields exactly the six parameters in their
      order, provided no value contains `&`. */
  lemma SearchUrlRoundTrip(c: Config)
    requires '&' !in c.sorting && '&' !in c.toprange && '&' !in c.order
    requires '&' !in c.atleast && '&' !in c.categories && '&' !in c.purity
    ensures QueryParameters(SearchUrl(c)) == Some(Parameters(c))
  {
    var it := QueryItems(c);
    SearchUrlIsJoinedItems(c);
    assert SearchUrl(c)[|Endpoint|..] == Join(it, "&");
    assert forall i :: 0 <= i < |it| ==> '&' !in it[i];
    SplitOfJoin(it, '&');
    KeyValuesOfItems(c);
  }

  /** For every configuration that passes the validators, the search URL
      carries the six configured values unchanged. */
  lemma ValidSearchUrlRoundTrip(c: Config)
    requires IsValidConfig(c)
    ensures QueryParameters(SearchUrl(c)) == Some(Parameters(c))
  {
    ValidConfigHasNoDelimiters(c);
    SearchUrlRoundTrip(c);
  }

  /** The URL depends on the six query values only: the api key and the
      output directory never reach it. */
  lemma SearchUrlIgnoresOtherFields(c: Config, apikey: string, output: string)
    ensures SearchUrl(c.(apikey := apikey, output := output)) == SearchUrl(c)
  {
  }
}

=== FILE: settings.dfy ===
/** The resolved options: the values read from the configuration file, and
    the command-line flags laid over them by the argument parser, each passed
    through its validator. */
module Settings {
  import opened Wrappers
  import opened PyStr
  import opened PyInt
  import opened Validators

  /** The configuration as `load_config` returns it (the macOS display index
      is not part of this model). */
  datatype Config = Config(
    apikey: string,
    sorting: string,
    toprange: string,
    order: string,
    atleast: string,
    categories: string,
    purity: string,
    output: string)

  /** The values written to a fresh configuration file. */
  const DefaultConfig: Config := Config(
    apikey := "",
    sorting := "toplist",
    toprange := "1d",
    order := "desc",
    atleast := "1920x1080",
    categories := "100",
    purity := "100",
    output := "~/Pictures/Wallpapers")

  /** The flags given on the command line; `None` for a flag left out. */
  datatype Args = Args(
    apikey: Option<string>,
    sorting: Option<string>,
    toprange: Option<string>,
    order: Option<string>,
    atleast: Option<string>,
    categories: Option<string>,
    purity: Option<string>,
    display: Option<string>,
    output: Option<string>)

  const NoFlags: Args := Args(None, None, None, None, None, None, None, None, None)

  /** The argument parser's exit on a rejected value: the flag and the value. */
  datatype OptionError = OptionError(flag: string, value: string)

  /** Flags win over configuration values; with no flags the configuration
      stands as it is. */
  function Overlay(c: Config, a: Args): (r: Config)
    ensures a == NoFlags ==> r == c
  {
    Config(
      apikey := a.apikey.GetOr(c.apikey),
      sorting := a.sorting.GetOr(c.sorting),
      toprange := a.toprange.GetOr(c.toprange),
      order := a.order.GetOr(c.order),
      atleast := a.atleast.GetOr(c.atleast),
      categories := a.categories.GetOr(c.categories),
      purity := a.purity.GetOr(c.purity),
      output := a.output.GetOr(c.output))
  }

  /** Every validated field passes its validator. */
  predicate IsValidConfig(c: Config) {
    && Sorting(c.sorting).Success?
    && TopRange(c.toprange).Success?
    && Order(c.order).Success?
    && Atleast(c.atleast).Success?
    && Filters(c.categories).Success?
    && Filters(c.purity).Success?
  }

  /** `--display` is parsed with `type=int` on every platform, although only
      the macOS branch uses its value; the configured fallback is an integer
      or the default string `'0'`, which `int()` accepts. */
  predicate DisplayParses(a: Args) {
    a.display.Some? ==> IsPyInt(a.display.value)
  }

  /** The argument parser: every flag falls back to the configuration value,
      and the parser runs the flag's validator on that fallback as well as
      on a given value, so an invalid configuration value stops it too. The
      api key and the output directory are taken as they are. */
  function Resolve(c: Config, a: Args): (r: Result<Config, OptionError>)
    ensures r.Success? <==> IsValidConfig(Overlay(c, a)) && DisplayParses(a)
    ensures r.Success? ==> r.value == Overlay(c, a)
    ensures r.Failure? ==> var o := Overlay(c, a);
      || (r.error == OptionError("--sorting", o.sorting) && Sorting(o.sorting).Failure?)
      || (r.error == OptionError("--toprange", o.toprange) && TopRange(o.toprange).Failure?)
      || (r.error == OptionError("--order", o.order) && Order(o.order).Failure?)
      || (r.error == OptionError("--atleast", o.atleast) && Atleast(o.atleast).Failure?)
      || (r.error == OptionError("--categories", o.categories) && Filters(o.categories).Failure?)
      || (r.error == OptionError("--purity", o.purity) && Filters(o.purity).Failure?)
      || (a.display.Some? && r.error == OptionError("--display", a.display.value) && !IsPyInt(a.display.value))
  {
    var sorting :- Sorting(a.sorting.GetOr(c.sorting)).MapFailure((e: Invalid) => OptionError("--sorting", e.value));
    var toprange :- TopRange(a.toprange.GetOr(c.toprange)).MapFailure((e: Invalid) => OptionError("--toprange", e.value));
    var order :- Order(a.order.GetOr(c.order)).MapFailure((e: Invalid) => OptionError("--order", e.value));
    var atleast :- Atleast(a.atleast.GetOr(c.atleast)).MapFailure((e: Invalid) => OptionError("--atleast", e.value));
    var categories :- Filters(a.categories.GetOr(c.categories)).MapFailure((e: Invalid) => OptionError("--categories", e.value));
    var purity :- Filters(a.purity.GetOr(c.purity)).MapFailure((e: Invalid) => OptionError("--purity", e.value));
    if a.display.Some? && !IsPyInt(a.display.value) then Failure(OptionError("--display", a.display.value)) else
    Success(Config(a.apikey.GetOr(c.apikey), sorting, toprange, order, atleast, categories, purity,
                   a.output.GetOr(c.output)))
  }

  lemma DefaultEnumsValid()
    ensures Sorting("toplist").Success? && TopRange("1d").Success? && Order("desc").Success?
  {
  }

  /** The defaults pass every validator. */
  lemma DefaultsAreValid()
    ensures IsValidConfig(DefaultConfig)
  {
    DefaultEnumsValid();
    AtleastAcceptsExample();
    FiltersAcceptsExample();
  }

  /** A run with a fresh configuration file and no flags resolves to exactly
      the defaults. */
  lemma DefaultsResolve()
    ensures Resolve(DefaultConfig, NoFlags) == Success(DefaultConfig)
  {
    DefaultsAreValid();
    assert Overlay(DefaultConfig, NoFlags) == DefaultConfig;
    assert DisplayParses(NoFlags);
  }

  /** A flag replaces the configuration value it overrides, whatever the
      configuration held, once it passes its validator. */
  lemma FlagWinsOverConfig(c: Config, a: Args, v: string)
    requires a.sorting == Some(v) && Resolve(c, a).Success?
    ensures Resolve(c, a).value.sorting == v
    ensures Sorting(v) == Success(v)
  {
  }

  /** A `--display` value that is not an integer stops the parser, even on
      Linux where the value is never used; an integer passes and changes
      nothing else. */
  lemma DisplayFlagChecked(c: Config, v: string)
    requires IsValidConfig(c)
    ensures !IsPyInt(v) ==> Resolve(c, NoFlags.(display := Some(v))) == Failure(OptionError("--display", v))
    ensures IsPyInt(v) ==> Resolve(c, NoFlags.(display := Some(v))) == Success(c)
  {
    assert Overlay(c, NoFlags.(display := Some(v))) == c;
  }

  /** A display value with a character `int()` never accepts in it, such as
      any letter in `-d abc` or `-d ABC`, is rejected. */
  lemma DisplayWordRejected(c: Config, v: string, i: int)
    requires IsValidConfig(c)
    requires 0 <= i < |v| && !IsIntChar(v[i])
    ensures Resolve(c, NoFlags.(display := Some(v))) == Failure(OptionError("--display", v))
  {
    NotPyIntWithForeignChar(v, i);
    DisplayFlagChecked(c, v);
  }

  /** Laying the same flags over twice changes nothing more, and once every
      flag is given the configuration no longer matters. */
  lemma OverlayLaws(c: Config, c2: Config, a: Args)
    ensures Overlay(Overlay(c, a), a) == Overlay(c, a)
    ensures a.apikey.Some? && a.sorting.Some? && a.toprange.Some? && a.order.Some? &&
            a.atleast.Some? && a.categories.Some? && a.purity.Some? && a.output.Some?
            ==> Overlay(c, a) == Overlay(c2, a)
  {
  }

  /** A configured value whose flag is given is never validated: only the
      flag's value is. */
  lemma FlaggedConfigValueUnchecked(c: Config, v: string)
    requires IsValidConfig(c.(sorting := v))
    ensures Resolve(c, NoFlags.(sorting := Some(v))) == Success(c.(sorting := v))
  {
    assert Overlay(c, NoFlags.(sorting := Some(v))) == c.(sorting := v);
  }

  /** A valid configuration keeps every value free of `&` and `=`. */
  lemma ValidConfigHasNoDelimiters(c: Config)
    requires IsValidConfig(c)
    ensures '&' !in c.sorting && '&' !in c.toprange && '&' !in c.order
    ensures '&' !in c.atleast && '&' !in c.categories && '&' !in c.purity
  {
    EnumValuesHaveNoDelimiters(c.sorting);
    EnumValuesHaveNoDelimiters(c.toprange);
    EnumValuesHaveNoDelimiters(c.order);
    AtleastValuesHaveNoDelimiters(c.atleast);
    FiltersValuesHaveNoDelimiters(c.categories);
    FiltersValuesHaveNoDelimiters(c.purity);
  }
}

=== FILE: template.dfy ===
/** The command templates and Python's `str.format` applied to them with the
    single keyword `save_location`: `{save_location}` is replaced, `{{` and
    `}}` stand for literal braces, any other use of a brace raises. */
module Template {
  import opened Wrappers
  import opened PyStr

  const Field: string := "{save_location}"

  /** A template as data: literal text and places for the save location. */
  datatype Piece = Text(text: string) | Location

  /** `KeyError`/`ValueError` from `format`: a replacement field other than
      `{save_location}`, or a lone `}`. */
  datatype FormatError = MalformedField | SingleClosingBrace

  /** Literal text as it is written inside a template: braces doubled. */
  function Escape(s: string): (r: string)
    ensures '{' !in s && '}' !in s ==> r == s
  {
    if |s| == 0 then ""
    else (if s[0] == '{' then "{{" else if s[0] == '}' then "}}" else [s[0]]) + Escape(s[1..])
  }

  /** The template text for a list of pieces. */
  function Render(pieces: seq<Piece>): string {
    if |pieces| == 0 then ""
    else (match pieces[0] case Text(s) => Escape(s) case Location => Field) + Render(pieces[1..])
  }

  /** What one piece says once the save location is filled in. */
  function PieceText(p: Piece, location: string): string {
    match p
    case Text(s) => s
    case Location => location
  }

  /** What the pieces say once the save location is filled in. */
  function Substitute(pieces: seq<Piece>, location: string): string {
    if |pieces| == 0 then "" else PieceText(pieces[0], location) + Substitute(pieces[1..], location)
  }

  lemma SubstituteCons(p: Piece, rest: seq<Piece>, location: string)
    ensures Substitute([p] + rest, location) == PieceText(p, location) + Substitute(rest, location)
  {
    assert ([p] + rest)[1..] == rest;
  }

  function PrependTo(prefix: string, r: Result<string, FormatError>): Result<string, FormatError> {
    match r
    case Success(s) => Success(prefix + s)
    case Failure(e) => Failure(e)
  }

  /** `t.format(save_location=location)`. */
  function Format(t: string, location: string): (r: Result<string, FormatError>)
    ensures '{' !in t && '}' !in t ==> r == Success(t)
    decreases |t|
  {
    if |t| == 0 then Success("")
    else if t[0] == '{' then
      if |t| >= 2 && t[1] == '{' then PrependTo("{", Format(t[2..], location))
      else if Field <= t then PrependTo(location, Format(t[|Field|..], location))
      else Failure(MalformedField)
    else if t[0] == '}' then
      if |t| >= 2 && t[1] == '}' then PrependTo("}", Format(t[2..], location))
      else Failure(SingleClosingBrace)
    else
      assert [t[0]] + t[1..] == t;
      PrependTo([t[0]], Format(t[1..], location))
  }

  lemma PrependTwice(a: string, b: string, r: Result<string, FormatError>)
    ensures PrependTo(a, PrependTo(b, r)) == PrependTo(a + b, r)
  {
    match r
    case Success(v) => assert a + (b + v) == a + b + v;
    case Failure(_) =>
  }

  /** The first escaped character formats back to itself. */
  lemma FormatEscapedStep(s: string, rest: string, location: string)
    requires |s| > 0
    ensures Format(Escape(s) + rest, location) == PrependTo([s[0]], Format(Escape(s[1..]) + rest, location))
  {
    var t := Escape(s) + rest;
    var u := Escape(s[1..]) + rest;
    if s[0] == '{' {
      assert t == "{{" + u;
      assert t[2..] == u;
    } else if s[0] == '}' {
      assert t == "}}" + u;
      assert t[2..] == u;
    } else {
      assert t == [s[0]] + u;
      assert t[1..] == u;
    }
  }

  /** Escaped literal text formats back to the text itself. */
  lemma {:induction false} FormatEscaped(s: string, rest: string, location: string)
    ensures Format(Escape(s) + rest, location) == PrependTo(s, Format(rest, location))
    decreases |s|
  {
    if |s| == 0 {
      assert Escape(s) + rest == rest;
      match Format(rest, location)
      case Success(v) => assert s + v == v;
      case Failure(_) =>
    } else {
      FormatEscapedStep(s, rest, location);
      FormatEscaped(s[1..], rest, location);
      PrependTwice([s[0]], s[1..], Format(rest, location));
      assert [s[0]] + s[1..] == s;
    }
  }

  /** The placeholder formats to the save location. */
  lemma FormatField(rest: string, location: string)
    ensures Format(Field + rest, location) == PrependTo(location, Format(rest, location))
  {
    var t := Field + rest;
    assert Field <= t;
    assert t[|Field|..] == rest;
  }

  /** Formatting a rendered template never raises and yields exactly the
      substituted pieces. */
  lemma {:induction false} FormatRender(pieces: seq<Piece>, location: string)
    ensures Format(Render(pieces), location) == Success(Substitute(pieces, location))
    decreases |pieces|
  {
    if |pieces| > 0 {
      FormatRender(pieces[1..], location);
      match pieces[0]
      case Text(s) =>
        FormatEscaped(s, Render(pieces[1..]), location);
      case Location =>
        FormatField(Render(pieces[1..]), location);
    }
  }

  /** `'{oops}'.format(save_location=…)` raises, and so does a lone `}`. */
  lemma FormatRejectsStrayBraces(location: string)
    ensures Format("{oops}", location) == Failure(MalformedField)
    ensures Format("}", location) == Failure(SingleClosingBrace)
  {
    assert !(Field <= "{oops}") by {
      assert "{oops}"[1] != Field[1];
    }
  }
}

=== FILE: validators.dfy ===
/** The five option validators the argument parser uses as `type=`
    callables. Each returns its argument unchanged or raises `ValueError`;
    here the raise is `Failure(Invalid(s))`. */
module Validators {
  import opened Wrappers
  import opened PyStr
  import opened PyInt

  /** `ValueError` raised for the rejected string. */
  datatype Invalid = Invalid(value: string)

  /** The accepted `toprange` values, as listed in the source. */
  const TopRanges: seq<string> := ["1d", "3d", "1w", "1M", "3M", "6M", "1y"]

  /** The accepted `sorting` values. */
  const Sortings: seq<string> := ["date_added", "relevance", "random", "views", "favorites", "toplist"]

  /** The accepted `order` values. */
  const Orders: seq<string> := ["desc", "asc"]

  function TopRange(s: string): (r: Result<string, Invalid>)
    ensures r == Success(s) || r == Failure(Invalid(s))
  {
    if s !in TopRanges then Failure(Invalid(s)) else Success(s)
  }

  function Sorting(s: string): (r: Result<string, Invalid>)
    ensures r == Success(s) || r == Failure(Invalid(s))
  {
    if s !in Sortings then Failure(Invalid(s)) else Success(s)
  }

  function Order(s: string): (r: Result<string, Invalid>)
    ensures r == Success(s) || r == Failure(Invalid(s))
  {
    if s !in Orders then Failure(Invalid(s)) else Success(s)
  }

  /** `atleast`: the string splits on `'x'` into exactly two pieces and
      `int()` accepts both. */
  function Atleast(s: string): (r: Result<string, Invalid>)
    ensures r == Success(s) || r == Failure(Invalid(s))
  {
    var parts := Split(s, 'x');
    if |parts| != 2 then Failure(Invalid(s))
    else if !IsPyInt(parts[0]) || !IsPyInt(parts[1]) then Failure(Invalid(s))
    else Success(s)
  }

  /** `filters` (categories and purity): exactly three characters, and
      `int()` accepts the whole string. */
  function Filters(s: string): (r: Result<string, Invalid>)
    ensures r == Success(s) || r == Failure(Invalid(s))
  {
    if |s| != 3 then Failure(Invalid(s))
    else if !IsPyInt(s) then Failure(Invalid(s))
    else Success(s)
  }

  // ---- Reference enumerations for the three enum validators ----

  /** The time windows of the toplist. */
  datatype Window = Day | ThreeDays | Week | Month | ThreeMonths | SixMonths | Year

  function WindowName(w: Window): string {
    match w
    case Day => "1d"
    case ThreeDays => "3d"
    case Week => "1w"
    case Month => "1M"
    case ThreeMonths => "3M"
    case SixMonths => "6M"
    case Year => "1y"
  }

  function ParseWindow(s: string): (r: Option<Window>)
    ensures r.Some? ==> WindowName(r.value) == s
  {
    if s == "1d" then Some(Day)
    else if s == "3d" then Some(ThreeDays)
    else if s == "1w" then Some(Week)
    else if s == "1M" then Some(Month)
    else if s == "3M" then Some(ThreeMonths)
    else if s == "6M" then Some(SixMonths)
    else if s == "1y" then Some(Year)
    else None
  }

  /** The fields results can be sorted by. */
  datatype SortKey = DateAdded | Relevance | Random | Views | Favorites | Toplist

  function SortKeyName(k: SortKey): string {
    match k
    case DateAdded => "date_added"
    case Relevance => "relevance"
    case Random => "random"
    case Views => "views"
    case Favorites => "favorites"
    case Toplist => "toplist"
  }

  function ParseSortKey(s: string): (r: Option<SortKey>)
    ensures r.Some? ==> SortKeyName(r.value) == s
  {
    if s == "date_added" then Some(DateAdded)
    else if s == "relevance" then Some(Relevance)
    else if s == "random" then Some(Random)
    else if s == "views" then Some(Views)
    else if s == "favorites" then Some(Favorites)
    else if s == "toplist" then Some(Toplist)
    else None
  }

  datatype Direction = Desc | Asc

  function DirectionName(d: Direction): string {
    match d
    case Desc => "desc"
    case Asc => "asc"
  }

  function ParseDirection(s: string): (r: Option<Direction>)
    ensures r.Some? ==> DirectionName(r.value) == s
  {
    if s == "desc" then Some(Desc) else if s == "asc" then Some(Asc) else None
  }

  /** `toprange` accepts exactly the names of the seven time windows, and
      the window a name stands for is recovered from it. */
  lemma TopRangeAcceptsExactlyWindows(s: string)
    ensures TopRange(s).Success? <==> ParseWindow(s).Some?
    ensures forall w :: ParseWindow(WindowName(w)) == Some(w)
  {
    forall w ensures ParseWindow(WindowName(w)) == Some(w) {
      match w
      case Day => case ThreeDays => case Week => case Month =>
      case ThreeMonths => case SixMonths => case Year =>
    }
  }

  /** `sorting` accepts exactly the names of the six sort keys. */
  lemma SortingAcceptsExactlySortKeys(s: string)
    ensures Sorting(s).Success? <==> ParseSortKey(s).Some?
    ensures forall k :: ParseSortKey(SortKeyName(k)) == Some(k)
  {
    forall k ensures ParseSortKey(SortKeyName(k)) == Some(k) {
      match k
      case DateAdded => case Relevance => case Random =>
      case Views => case Favorites => case Toplist =>
    }
  }

  /** `order` accepts exactly `"desc"` and `"asc"`. */
  lemma OrderAcceptsExactlyDirections(s: string)
    ensures Order(s).Success? <==> ParseDirection(s).Some?
    ensures forall d :: ParseDirection(DirectionName(d)) == Some(d)
  {
  }

  /** The enum validators compare exactly: no case folding, no trimming. */
  lemma EnumValidatorsAreExact()
    ensures TopRange("1M").Success? && TopRange("1m").Failure? && TopRange(" 1d").Failure?
    ensures Sorting("toplist").Success? && Sorting("Toplist").Failure? && Sorting("").Failure?
    ensures Order("asc").Success? && Order("ASC").Failure?
  {
  }

  // ---- atleast ----

  /** `s` reads as `w + "x" + h` with both sides accepted by `int()`. */
  ghost predicate IsResolution(s: string, w: string, h: string) {
    s == w + "x" + h && IsPyInt(w) && IsPyInt(h)
  }

  /** A character outside the alphabet of `int()` rules a string out. */
  lemma NotPyIntWithForeignChar(s: string, i: int)
    requires 0 <= i < |s| && !IsIntChar(s[i])
    ensures !IsPyInt(s)
  {
    if IsPyInt(s) {
      PyIntAlphabet(s);
    }
  }

  /** Strings `int()` accepts never contain `'x'`, `'&'` or `'='`. */
  lemma PyIntHasNoSeparators(s: string)
    requires IsPyInt(s)
    ensures 'x' !in s && '&' !in s && '=' !in s
  {
    PyIntAlphabet(s);
    forall i | 0 <= i < |s| ensures s[i] != 'x' && s[i] != '&' && s[i] != '=' {
      assert IsIntChar(s[i]);
    }
  }

  /** `atleast` accepts exactly the strings `W x H` whose two sides are
      integers to Python. */
  lemma AtleastAcceptsExactlyResolutions(s: string)
    ensures Atleast(s).Success? <==> exists w, h :: IsResolution(s, w, h)
  {
    var parts := Split(s, 'x');
    if Atleast(s).Success? {
      SplitIntoTwo(s, 'x', parts[0], parts[1]);
      assert IsResolution(s, parts[0], parts[1]);
    }
    if exists w, h :: IsResolution(s, w, h) {
      var w, h :| IsResolution(s, w, h);
      PyIntHasNoSeparators(w);
      PyIntHasNoSeparators(h);
      SplitIntoTwo(s, 'x', w, h);
    }
  }

  /** Two plain digit strings around an `x` are always accepted. */
  lemma AtleastAcceptsDigitPairs(w: string, h: string)
    requires |w| > 0 && AllDigits(w) && |h| > 0 && AllDigits(h)
    ensures Atleast(w + "x" + h) == Success(w + "x" + h)
  {
    DigitsArePyInt(w);
    DigitsArePyInt(h);
    assert IsResolution(w + "x" + h, w, h);
    AtleastAcceptsExactlyResolutions(w + "x" + h);
  }

  /** Every `"<width>x<height>"` of natural numbers is accepted. */
  lemma AtleastAcceptsPrintedSizes(width: nat, height: nat)
    ensures Atleast(NatToString(width) + "x" + NatToString(height)).Success?
  {
    AtleastAcceptsDigitPairs(NatToString(width), NatToString(height));
  }

  /** The documented example of an accepted size. */
  lemma AtleastAcceptsExample()
    ensures Atleast("1920x1080") == Success("1920x1080")
  {
    assert "1920x1080" == "1920" + "x" + "1080";
    AtleastAcceptsDigitPairs("1920", "1080");
  }

  /** A string without `'x'` is one piece, hence rejected. */
  lemma AtleastRejectsOnePiece(s: string)
    requires 'x' !in s
    ensures Atleast(s) == Failure(Invalid(s))
  {
    SplitNoSeparator(s, 'x');
  }

  /** Three pieces are rejected. */
  lemma AtleastRejectsThreePieces()
    ensures Atleast("1x2x3").Failure?
  {
    assert "1x2x3" == "1" + "x" + "2x3";
    assert "2x3" == "2" + "x" + "3";
    SplitAppend("1", 'x', "2x3");
    SplitAppend("2", 'x', "3");
  }

  /** An empty piece is not an integer, so a size with a side left out, such
      as `x1080`, is rejected. */
  lemma AtleastRejectsEmptyPiece(w: string, h: string)
    requires 'x' !in w && 'x' !in h
    requires w == "" || h == ""
    ensures Atleast(w + "x" + h) == Failure(Invalid(w + "x" + h))
  {
    var s := w + "x" + h;
    assert s == w + ['x'] + h;
    SplitIntoTwo(s, 'x', w, h);
    assert Strip("") == "";
    assert !IsPyInt("");
  }

  // ---- filters ----

  /** Any three digits pass, not only the on/off flags `0` and `1`. */
  lemma FiltersAcceptsThreeDigits(s: string)
    requires |s| == 3 && AllDigits(s)
    ensures Filters(s) == Success(s)
  {
    DigitsArePyInt(s);
  }

  /** The documented example of accepted flags. */
  lemma FiltersAcceptsExample()
    ensures Filters("100") == Success("100")
  {
    FiltersAcceptsThreeDigits("100");
  }

  /** What `filters` accepts: three characters drawn from digits,
      whitespace, signs and underscores, at least one a digit. */
  lemma FiltersAlphabet(s: string)
    requires Filters(s).Success?
    ensures |s| == 3
    ensures forall i :: 0 <= i < |s| ==> IsIntChar(s[i])
    ensures exists i :: 0 <= i < |s| && IsAsciiDigit(s[i])
  {
    PyIntAlphabet(s);
  }

  /** Digits other than 0 and 1 pass, since only `int()` is consulted. */
  lemma FiltersAcceptsNines()
    ensures Filters("999") == Success("999")
  {
    FiltersAcceptsThreeDigits("999");
  }

  /** A sign counts as one of the three characters. */
  lemma FiltersAcceptsNegative()
    ensures Filters("-10") == Success("-10")
  {
    var t := "-10";
    assert TrimStart(t) == t;
    assert TrimEnd(t) == t;
    assert IsDigitRun(t[1..]) by {
      assert DigitOrInnerUnderscore(t[1..], 0);
      assert DigitOrInnerUnderscore(t[1..], 1);
    }
  }

  /** Too short, or not an integer: two example rejections. */
  lemma FiltersRejections()
    ensures Filters("1").Failure?
    ensures Filters("1a0").Failure?
  {
    NotPyIntWithForeignChar("1a0", 1);
  }

  /** The file separator `\x1c` is not whitespace to `int()`, although
      `str.isspace()` says it is. */
  lemma FiltersRejectsFileSeparator()
    ensures Filters("\U{1C}10").Failure?
  {
    NotPyIntWithForeignChar("\U{1C}10", 0);
  }

  /** No accepted value carries a query-string delimiter, so each one stays a
      single parameter value in the search URL. */
  lemma EnumValuesHaveNoDelimiters(s: string)
    requires TopRange(s).Success? || Sorting(s).Success? || Order(s).Success?
    ensures '&' !in s && '=' !in s
  {
    if s in TopRanges {
      ListedValuesPlain(TopRanges, s);
    } else if s in Sortings {
      ListedValuesPlain(Sortings, s);
    } else {
      ListedValuesPlain(Orders, s);
    }
  }

  /** Membership in one of the fixed value lists, which hold no delimiter. */
  lemma ListedValuesPlain(values: seq<string>, s: string)
    requires values == TopRanges || values == Sortings || values == Orders
    requires s in values
    ensures '&' !in s && '=' !in s
  {
  }

  lemma AtleastValuesHaveNoDelimiters(s: string)
    requires Atleast(s).Success?
    ensures '&' !in s && '=' !in s
  {
    AtleastAcceptsExactlyResolutions(s);
    var w, h :| IsResolution(s, w, h);
    PyIntHasNoSeparators(w);
    PyIntHasNoSeparators(h);
  }

  lemma FiltersValuesHaveNoDelimiters(s: string)
    requires Filters(s).Success?
    ensures '&' !in s && '=' !in s
  {
    PyIntHasNoSeparators(s);
  }
}

=== FILE: wrappers.dfy ===
/** Failure-compatible wrappers shared by the rest of the model: `Option` for
    values that may be missing (Python's `None`), `Result` for operations that
    either return a value or raise. */
module Wrappers {

  datatype Option<+T> = None | Some(value: T) {

    /** The wrapped value, or `default` when there is none. */
    function GetOr(default: T): T {
      match this
      case Some(v) => v
      case None => default
    }
  }

  datatype Result<+R, +E> = Success(value: R) | Failure(error: E) {

    predicate IsFailure() {
      Failure?
    }

    function PropagateFailure<U>(): Result<U, E>
      requires Failure?
    {
      Failure(error)
    }

    function Extract(): R
      requires Success?
    {
      value
    }

    /** The same outcome with the error value converted. */
    function MapFailure<NewE>(convert: E -> NewE): Result<R, NewE>
    {
      match this
      case Success(v) => Success(v)
      case Failure(e) => Failure(convert(e))
    }
  }
}
